=== FILE: README.md ===
# DCA bot core in Dafny

A model of the decision and order-construction logic of a dollar-cost-averaging
bot for the Coinbase Advanced Trade exchange, with proofs about it.

The model covers these parts:

- **One run of `dca.py`.**
  - It reconciles the JSON order history with the exchange, filling in
    `status` and `filled`.
  - It cancels open orders older than the 24-hour time-in-force.
  - It chooses a market buy when there are at least three limit orders from
    the last three days and none of them is marked filled, and otherwise
    places a limit buy 2% below the spot price.
  - It appends at most one record to the history.
- **The `coinbase_advanced_trader` library, modelled alongside the bot.**
  `dca.py` talks to the exchange's REST client directly and does not use
  this library.
  - Order sizing (`calculate_base_size`).
  - The `Order` record and its validation.
  - The order service's market and limit orders.
  - The fear-and-greed schedule.
  - The one-hour account cache.
  - The price service.

The exchange, the clock and the sentiment index are inputs:

- REST client calls are either function parameters from request to reply, or
  plain values.
- Times are whole seconds.
- An exception is a `Failure` carrying an `Error`. Its constructor names the
  exception class, and a Decimal division by zero is told apart from the
  undefined 0/0.

Python's `Decimal` is `Decimals.Dec`, a coefficient with a base-ten exponent.
Its value is an exact rational, and `quantize` looks only at the exponent of
its argument, as in Python.

The modules follow the source files:

| module | file |
|---|---|
| `Wrappers` | `Option`, `Result` and the error kinds |
| `Decimals` | decimal values, rounding modes, `quantize`, multiplication |
| `Helpers` | `utils/helpers.py` |
| `Orders` | `models/order.py` |
| `PriceService` | `services/price_service.py` |
| `OrderService` | `services/order_service.py` |
| `FearAndGreed` | `services/fear_and_greed_strategy.py` |
| `Accounts` | `services/account_service.py` |
| `Dca` | `dca.py` |

## Behaviour modelled as the code has it

- **An exception while listing or cancelling aborts the run.**
  - `list_orders` and `cancel_orders` are not inside a `try`.
  - An exception in either ends the run before the history is saved, and the
    reconciliation results are lost with it (`Dca.Run`, outcome `Aborted`).
  - A history record without `type` does the same, and so does a limit record
    without `time`. Both raise KeyError in the fallback filter.
- **An empty status string counts as an answer.** When `get_order` answers
  one, it is stored: `filled` becomes false.
- **The fallback decision reads only the local history.** It does not ask
  the exchange which orders filled.
- **The order service can raise after the exchange has the order.**
  - `_log_order_result` runs once the order is placed and built.
  - It unpacks the product id at '-' into exactly two currencies, and raises
    ValueError otherwise.
  - It looks the product details up a second time and raises ValueError if
    that fails.
  - For a successful market order it looks the spot price up again and
    converts it to Decimal. A failed lookup raises TypeError, and for a buy a
    zero price raises in the division.
  - The second lookups are the input `OrderService.Recheck`.
- **A rejected limit order raises KeyError.** `_place_limit_order` reads
  `success_response` without checking `success`, so a reply that carries only
  `error_response` raises KeyError for `success_response`.
- **Limit orders never record their fills.**
  - A limit order is recorded with `"filled": False`.
  - Reconciliation skips every record that already has `filled`.
  - So a limit order that later fills on the exchange is never marked filled.
  - On a history written by the bot, the fallback rule therefore reduces to
    "at least three limit orders in the last three days"
    (`Dca.FallbackIgnoresExchangeFills`).

## Model

| member | source | states |
|---|---|---|
| Decimals.Quantize | coinbase_advanced_trader/utils/helpers.py:21-23 | `Decimal.quantize`: the result has the target exponent and lies within half a quantum of the exact value; a value already on the grid is unchanged; a half-up tie rounds away from zero and a half-even tie to an even coefficient |
| Decimals.RoundHalfUp | coinbase_advanced_trader/utils/helpers.py:22 | ROUND_HALF_UP: the nearest integer, with a tie going away from zero |
| Decimals.RoundHalfEven | dca.py:102 | Python's `round` and the default Decimal context: the nearest integer, with a tie going to the even one |
| Decimals.RoundIntegral | coinbase_advanced_trader/utils/helpers.py:21-23 | rounding an integral value returns it, in both modes |
| Decimals.Mul | coinbase_advanced_trader/services/fear_and_greed_strategy.py:49 | Decimal multiplication is exact: the value of the product is the product of the values |
| Decimals.ScaleAdd | coinbase_advanced_trader/services/fear_and_greed_strategy.py:49 | 10^(a+b) = 10^a·10^b for exponents of any sign, which multiplication relies on |
| Helpers.CalculateBaseSize | coinbase_advanced_trader/utils/helpers.py:5-23 | fiat/price quantised half-up to the increment's exponent: within half an increment of the quotient, a tie away from zero, an on-grid quotient unchanged; a zero price raises, exactly then, with the exception `ZeroDivisorError` names |
| Helpers.BaseSizeIsMultipleOfIncrement | coinbase_advanced_trader/utils/helpers.py:21-23 | with a power-of-ten increment the size is a whole number of increments |
| Helpers.BaseSizeExample | coinbase_advanced_trader/tests/test_order_service.py:80-87 | 10 at 50000 with increment 1e-8 gives 0.00020000 |
| Helpers.ZeroDivisorError | coinbase_advanced_trader/utils/helpers.py:21 | dividing by a zero Decimal raises DivisionByZero, or InvalidOperation (DivisionUndefined) when the dividend is zero too |
| Helpers.ZeroPriceExample | coinbase_advanced_trader/utils/helpers.py:21 | 10 at a price of 0.00 raises DivisionByZero; 0 at 0.00 raises InvalidOperation |
| Orders.NewOrder | coinbase_advanced_trader/models/order.py:35-47 | construction fails with ValueError "Limit orders must have a price" exactly for a limit order without a price; otherwise every field is stored as given and the order is valid |
| Orders.ConstructorAcceptsExactlyValid | coinbase_advanced_trader/models/order.py:44-47 | the constructor rebuilds an order from its own fields exactly when the order is valid |
| Orders.MarketOrderDefaults | coinbase_advanced_trader/models/order.py:40-42 | a market order without a price is accepted, with no price, no client order id and status "pending" |
| Orders.Order.IsBuy | coinbase_advanced_trader/models/order.py:49-52 | `is_buy` holds exactly when `is_sell` does not |
| Orders.Order.IsSell | coinbase_advanced_trader/models/order.py:54-57 | `is_sell` holds exactly when the side is not BUY |
| Orders.Order.IsMarket | coinbase_advanced_trader/models/order.py:59-62 | `is_market` holds exactly when `is_limit` does not |
| Orders.Order.IsLimit | coinbase_advanced_trader/models/order.py:64-67 | `is_limit` holds exactly when the type is not MARKET |
| PriceService.GetSpotPrice | coinbase_advanced_trader/services/price_service.py:21-47 | a price exactly when the lookup succeeded and both `price` and `quote_increment` are decimals; it is the price quantised to the increment's exponent, within half an increment, unchanged when on the grid, and a tie goes to an even coefficient |
| PriceService.GetProductDetails | coinbase_advanced_trader/services/price_service.py:49-67 | both increments exactly when the lookup succeeded and both are decimals, and `None` otherwise |
| PriceService.SpotPriceExample | coinbase_advanced_trader/tests/test_price_service.py:18-31 | '61536' with increment '0.01' reads as 61536.00 |
| PriceService.MissingPriceGivesNone | coinbase_advanced_trader/tests/test_price_service.py:33-45 | a response without `price` gives `None` |
| OrderService.RejectionMessage | coinbase_advanced_trader/services/order_service.py:55-60 | the rejection message starts "Failed to place a market buy order. Reason: " (or sell), continues with the error message ("Unknown error" when absent), and ends with ". Preview failure reason: " and the preview failure reason ("Unknown" when absent) |
| OrderService.MarketResult | coinbase_advanced_trader/services/order_service.py:54-70 | before logging, a market order results exactly when the reply reports success and carries `success_response.order_id`; a rejection raises with the exchange's reasons; a missing `success_response` or `order_id` raises KeyError for that key; the order has that id, the side, type MARKET, the size, and the defaults |
| OrderService.LogOrderResult | coinbase_advanced_trader/services/order_service.py:223-270 | raises ValueError for a product id without exactly one '-' and for a failed second details lookup; for a successful order without a price, TypeError when the second spot lookup fails and, for a buy, the division error at a zero spot; raises nothing otherwise |
| OrderService.FiatMarketBuy | coinbase_advanced_trader/services/order_service.py:36-80 | sends one market buy for the fiat amount; the reply's failure comes first, and an order built from it is returned exactly when `_log_order_result` then raises nothing, which needs a product id with one '-' and a second details and non-zero spot lookup; the order is a market buy whose size is the fiat amount |
| OrderService.FiatMarketSell | coinbase_advanced_trader/services/order_service.py:82-131 | sends nothing when the details or the price are missing or the price is zero, each with its exception (DivisionByZero, or InvalidOperation for a zero amount); otherwise sends one market sell sized by `calculate_base_size`, and an order built from the reply is returned exactly when `_log_order_result` raises nothing |
| OrderService.PriceBasis | coinbase_advanced_trader/services/order_service.py:191-192 | the unrounded limit price is the explicit price when given, else the spot price times the multiplier |
| OrderService.AdjustedPrice | coinbase_advanced_trader/services/order_service.py:191-192 | the limit price has the quote increment's exponent, lies within half an increment of the basis, is the basis when that is on the grid, and a tie goes to an even coefficient |
| OrderService.PlaceLimitOrder | coinbase_advanced_trader/services/order_service.py:163-221 | ValueError with nothing sent when the price or the details are missing, and the division error of `calculate_base_size` for a zero adjusted price; otherwise one GTC request on the side's endpoint with the adjusted price and `calculate_base_size` of it; a raising client is passed on and a missing `success_response` or `order_id` raises KeyError, success flag or not; an order results exactly when the id is there, the product id has one '-' and the second details lookup succeeds, and it is a valid limit order with that id, price and size, no client order id and status "pending" |
| OrderService.FiatLimitBuy | coinbase_advanced_trader/services/order_service.py:133-146 | a limit order on the buy side; only the GTC buy endpoint is used |
| OrderService.FiatLimitSell | coinbase_advanced_trader/services/order_service.py:148-161 | a limit order on the sell side; only the GTC sell endpoint is used |
| OrderService.RejectedReplyOnlyStopsMarketOrders | coinbase_advanced_trader/services/order_service.py:202-216 | a reply with success false and an order id makes the market buy raise but the limit buy return an order |
| OrderService.RejectedLimitReplyRaisesKeyError | coinbase_advanced_trader/services/order_service.py:209-210 | a rejected limit reply carrying only `error_response` is sent and raises KeyError for `success_response` |
| OrderService.PlacedOrderCanStillRaise | coinbase_advanced_trader/services/order_service.py:64-72 | with a product id without '-', an accepted market buy is sent and the caller still gets ValueError |
| OrderService.FailedRecheckRaisesAfterMarketBuy | coinbase_advanced_trader/services/order_service.py:245-258 | an accepted market buy whose second spot lookup fails raises TypeError |
| OrderService.LimitOrderIgnoresSpotRecheck | coinbase_advanced_trader/services/order_service.py:246-253 | a limit order's outcome does not depend on the second spot lookup |
| OrderService.RejectionDefaults | coinbase_advanced_trader/services/order_service.py:55-57 | a missing error response reads as reasons "Unknown error" and "Unknown" |
| OrderService.LimitPriceOverridesMultiplier | coinbase_advanced_trader/services/order_service.py:191-192 | an explicit limit price makes the spot price and the multiplier irrelevant |
| OrderService.LimitBuyExample | coinbase_advanced_trader/tests/test_order_service.py:89-124 | spot 50000, multiplier 0.9995: the buy is priced 49975.00 and sized 0.00020010 |
| OrderService.LimitSellExample | coinbase_advanced_trader/tests/test_order_service.py:126-152 | spot 50000, multiplier 1.005: the sell is priced 50250.00 and sized 0.00019900 |
| FearAndGreed.FirstMatch | coinbase_advanced_trader/services/fear_and_greed_strategy.py:47-48 | the scan finds the first condition that fires, and finds none exactly when no condition fires |
| FearAndGreed.FirstMatchUnique | coinbase_advanced_trader/services/fear_and_greed_strategy.py:47-55 | there is only one first match |
| FearAndGreed.ExecuteAction | coinbase_advanced_trader/services/fear_and_greed_strategy.py:60-77 | "buy" places a limit buy and "sell" a limit sell with the default multiplier; any other action places nothing and answers `None` |
| FearAndGreed.AdjustedAmount | coinbase_advanced_trader/services/fear_and_greed_strategy.py:49 | the amount traded is the fiat amount times the condition's factor |
| FearAndGreed.ExecuteTrade | coinbase_advanced_trader/services/fear_and_greed_strategy.py:30-58 | an order is attempted exactly when some condition fires; it is the action of the first one that fires, with its scaled amount |
| FearAndGreed.LaterConditionsIgnored | coinbase_advanced_trader/services/fear_and_greed_strategy.py:47-55 | conditions after the first match are never consulted |
| FearAndGreed.SkipsNonMatching | coinbase_advanced_trader/services/fear_and_greed_strategy.py:47-48 | a condition that does not fire is passed over |
| FearAndGreed.ExampleBuy | coinbase_advanced_trader/tests/test_fear_and_greed_strategy.py:28-54 | at index 25 the buy condition fires and 10 becomes 12 |
| FearAndGreed.ExampleSell | coinbase_advanced_trader/tests/test_fear_and_greed_strategy.py:56-82 | at index 75 the sell condition fires and 10 becomes 8 |
| FearAndGreed.ExampleNeutral | coinbase_advanced_trader/tests/test_fear_and_greed_strategy.py:84-98 | at index 50 nothing fires and nothing is placed |
| Accounts.BuildCache | coinbase_advanced_trader/services/account_service.py:46-52 | every currency in the response is in the map, and each maps to the uuid and balance of its last entry |
| Accounts.BuildCacheStep | coinbase_advanced_trader/services/account_service.py:46-52 | adding one entry keeps the last-entry-wins description |
| Accounts.GetAccounts | coinbase_advanced_trader/services/account_service.py:41-55 | fetches exactly when the cache is empty or more than an hour old; a hit returns the cached map unchanged; a fetch rebuilds the map and stamps it with `now`; a failed fetch leaves the cache alone |
| Accounts.GetAccountByCurrency | coinbase_advanced_trader/services/account_service.py:77-110 | `None` without a detail call for a currency not in the cache; otherwise one detail call for its uuid, and an account combining the cached uuid and balance with the details |
| Accounts.GetCryptoBalance | coinbase_advanced_trader/services/account_service.py:57-75 | the cached balance, or 0 for a currency with no account; it fails whenever the detail lookup does |
| Accounts.HeldBalances | coinbase_advanced_trader/services/account_service.py:166-170 | exactly the currencies with a positive balance, each with that balance |
| Accounts.ListHeldCryptoBalances | coinbase_advanced_trader/services/account_service.py:157-185 | the held balances of the map the cache answers, with the cache's fetch behaviour |
| Accounts.CacheServesWithinHour | coinbase_advanced_trader/services/account_service.py:42-43 | up to an hour after a refresh, calls make no fetch and return the same map |
| Accounts.CacheExpiresAfterHour | coinbase_advanced_trader/services/account_service.py:42-43 | more than an hour after a refresh, the next call fetches |
| Accounts.CacheBoundaryIsInclusive | coinbase_advanced_trader/services/account_service.py:39-43 | at exactly one hour the cache is still used; one second later it is not |
| Accounts.CacheExpirationExample | coinbase_advanced_trader/tests/test_account_service.py:90-124 | fetch at 12:00, hit at 12:30, fetch at 13:01 |
| Accounts.LaterDuplicateWins | coinbase_advanced_trader/services/account_service.py:46-52 | of two entries for one currency the later one is kept |
| Accounts.UnknownCurrencyHasZeroBalance | coinbase_advanced_trader/services/account_service.py:88-92 | a currency with no account has balance 0 and causes no detail call |
| Accounts.HeldBalancesExample | coinbase_advanced_trader/tests/test_account_service.py:78-88 | 1.5 BTC, 0 ETH and 100.0 XRP: BTC and XRP are held |
| Dca.Lower | dca.py:39 | lower-casing keeps the length and lower-cases each ASCII letter |
| Dca.LowerIdempotent | dca.py:39 | lower-casing twice is lower-casing once |
| Dca.ReconcileRecord | dca.py:35-43 | a record without an order id, or with `filled`, is untouched; a failed lookup leaves it untouched; a successful one sets the lower-cased status and `filled = (status == "filled")` together; type, id and time never change |
| Dca.Reconcile | dca.py:32-43 | every record is reconciled on its own; the ledger keeps its length and order |
| Dca.Queried | dca.py:34-38 | the ids looked up are exactly those of records with an order id and no `filled` |
| Dca.ReconcileDependsOnlyOnQueried | dca.py:35-38 | answers for ids outside the queried set cannot change the result |
| Dca.ReconcileIdempotent | dca.py:35-41 | reconciling twice with the same exchange answers is reconciling once |
| Dca.ReconcileKeepsFilled | dca.py:35 | a record with `filled` is never changed |
| Dca.FilledLedgerIsFixed | dca.py:35 | a ledger where every record has `filled` queries nothing and is returned unchanged |
| Dca.StatusExample | dca.py:39-41 | "FILLED" marks a record filled with status "filled"; "OPEN" marks it not filled |
| Dca.StaleIffOlderThanADay | dca.py:65-66 | an order is stale exactly when it is more than 86400 seconds old |
| Dca.StaleIds | dca.py:63-66 | the stale ids are exactly those of open orders whose age in hours exceeds 24, in listing order: a stale order is at the position given by the number of stale orders listed before it |
| Dca.StaleBeforeIncreases | dca.py:63-66 | a stale order has fewer stale orders before it than any order listed after it |
| Dca.StaleIdsKeepListingOrder | dca.py:63-67 | of two stale orders, the one listed first is cancelled first |
| Dca.CancelAll | dca.py:62-68 | cancels the stale orders in order; it completes exactly when every cancel returns, and otherwise stops at the first that raises |
| Dca.StaleBoundaryExample | dca.py:65-66 | an order exactly 24 hours old is kept; one second older, it is cancelled |
| Dca.DaysBetween | dca.py:73 | `timedelta.days` is the floor of the age in days |
| Dca.RecentLimitRecords | dca.py:71-74 | the filter fails exactly when a record lacks a key it reads; otherwise it keeps exactly the limit records under three whole days old |
| Dca.RecentLimitRecordsAppend | dca.py:71-74 | appending a record adds it to the filter exactly when it is a recent limit record; market records never count |
| Dca.FallbackTwoRecentExample | dca.py:75-77 | two recent unfilled limit records keep the limit path |
| Dca.FallbackThreeRecentExample | dca.py:75-77 | three recent unfilled limit records choose the market path |
| Dca.WindowBoundaryExample | dca.py:73 | a record exactly three days old is outside the window, and one second younger is inside it |
| Dca.LimitPriceCents | dca.py:101 | the limit price in cents is 98% of the price rounded down to a cent |
| Dca.LimitBaseSize | dca.py:102 | the size has six decimals, lies within half a millionth of 1/limit price, and a tie goes to an even last digit; a zero limit price fails |
| Dca.LimitArithmeticExample | dca.py:100-102 | a price of 100 gives a limit of 98.00 and a size of 0.010204 |
| Dca.NewRecord | dca.py:88-93 | the appended record carries the type, order id and run time, and `filled` true exactly for a market order |
| Dca.Appended | dca.py:85-95 | at most one record is added, exactly when the reply reports success with an order id |
| Dca.LimitStep | dca.py:98-123 | a limit request is sent exactly when a price is known and its limit is not zero cents; it carries that limit and size, and only its accepted reply adds a record |
| Dca.Run | dca.py:46-125 | the run aborts exactly when listing, a cancel or the fallback filter raises, and an aborted run reports the cancels already sent (none when listing raised, up to the raising one, or all stale orders when the filter raised); a saved ledger is the reconciled ledger plus what the chosen placement appends; the market path is taken exactly under the fallback condition, and otherwise the limit request is the one `LimitStep` computes; a record is added exactly when the request sent was accepted, and it matches that request |
| Dca.RunPreservesBotLedger | dca.py:85-118 | a history written by runs stays of that shape: nothing is queried, reconciliation changes nothing, the filter never fails |
| Dca.BotLedgerHasNoFills | dca.py:75-77 | on such a history no recent limit record is filled, so the fallback condition is "at least three recent limit records" |
| Dca.FallbackIgnoresExchangeFills | dca.py:75-77 | a run on such a history takes the market path exactly when there are at least three recent limit records, whatever the exchange has filled |
| Dca.AppendedRecordNeverRequeried | dca.py:35 | the record a run appends is never looked up again and no later reconciliation changes it |

## Left out

- Loading and saving the history file, the `.env` credentials and all
  printing and logging. The credential check is a boolean input to
  `Dca.Run`. `_log_order_result` is modelled only for the exceptions it
  raises; the text it logs is not.
- Client order ids. They are fresh UUIDs that nothing reads back.
- Reading the clock and parsing ISO-8601 timestamps. Times are whole seconds
  given as inputs, and sub-second ages are not modelled.
- The Fear and Greed Index client and `get_fgi_schedule`. The index value and
  the schedule are inputs, and so are the default price multipliers, which come
  from a configuration module that is not part of this model.
- Decimal's 28-digit context precision, its special values (NaN, infinities)
  and the exceptions a quantisation can raise when it exceeds that precision.
  Decimal arithmetic is exact here.
- String parsing of decimals. Each field is either missing, malformed or an
  already-parsed decimal, and an explicit `limit_price` is an optional
  decimal, an empty string counting as absent.
- The response-object form of `get_product`'s answer (`__dict__`) and a
  missing `success` key in a reply. For a market order the key is read at
  once; for a limit order `_log_order_result` reads it after the order is
  built. Either way the missing key raises KeyError, which is not modelled.
- The "Invalid product_id" branch of the market orders' `except`. It only logs
  and re-raises.
- `list_payment_methods`, `show_deposit_methods`, the funds service, the
  strategy base class and `models/product.py`. None of them decides anything.
- Dca.LimitPriceCents: computes floor(price·98) exactly. The float product
  `price * 0.98 * 100` can fall just under a whole number and give one cent
  less, and IEEE rounding is not modelled.
- Dca.LimitBaseSize: rounds 1/(cents/100) exactly. The float quotient,
  `round` on a binary float, and the `str` of the float base size are not
  modelled. That string uses scientific notation below 1e-4, as for any limit
  price above about 10050 (1.7e-05 at a spot price of 60000). The exchange here receives the
  decimal itself.
- Dca.Lower: lower-cases ASCII letters only. `str.lower` also maps other
  Unicode letters.
- FearAndGreed.AdjustedAmount: takes the factor as the decimal it denotes.
  `Decimal(float)` would give the exact binary value of the float, for
  example 1.1999999999999999555… for 1.2.
- Accounts.GetAccounts: stamps the cache with the same `now` used for the
  expiry test. The source reads the clock a second time after the fetch.
- OrderService.LogOrderResult: the unpacking ValueError carries CPython's
  message without the count of extra values, which some Python versions add.
- Accounts.GetAccounts: the account list is one response. The `limit=250`
  page size and any further pages are not modelled.

=== FILE: account_service.dfy ===
/** `coinbase_advanced_trader/services/account_service.py`: a one-hour cache
    of the account list, and the balance queries built on it.

    The service's mutable cache is a value passed in and handed back. The
    clock is an integer `now` in seconds; the exchange's account list and
    per-account details are inputs, `None` standing for a client call that
    raised.
 */
module Accounts {
  import opened Wrappers
  import opened Decimals

  /** One entry of `get_accounts()['accounts']`. */
  datatype RawAccount = RawAccount(uuid: string, currency: string, availableBalance: Dec)

  /** What the cache keeps per currency. */
  datatype CachedAccount = CachedAccount(uuid: string, availableBalance: Dec)

  /** The service's state: no cache yet (`None`), or the cached map and the
      time it was filled. */
  datatype AccountCache = AccountCache(accounts: Option<map<string, CachedAccount>>, timestamp: int)

  const EmptyCache: AccountCache := AccountCache(None, 0)

  /** `timedelta(hours=1)`, in seconds. */
  const CacheDuration: int := 3600

  /** The fields of `get_account(uuid).account` that `Account` copies. */
  datatype AccountDetail = AccountDetail(name: string, accountType: string, active: bool, createdAt: string)

  /** The `Account` dataclass. */
  datatype Account = Account(uuid: string, currency: string, availableBalance: Dec,
                             name: string, accountType: string, active: bool, createdAt: string)

  /** One service call: the cache afterwards, whether the account list was
      fetched, the uuid whose details were asked for, and the answer. */
  datatype Step<T> = Step(cache: AccountCache, fetched: bool, detailCall: Option<string>, result: Result<T, Error>)

  const FetchFailed: string := "get_accounts failed"
  const DetailFailed: string := "get_account failed"

  /** The refresh condition of `_get_accounts`: nothing cached, or the cache
      strictly older than an hour. */
  predicate NeedsRefresh(cache: AccountCache, now: int) {
    cache.accounts.None? || now - cache.timestamp > CacheDuration
  }

  /** The dict comprehension over the response: currency to uuid and
      balance, a later entry for the same currency replacing an earlier one. */
  function BuildCache(raw: seq<RawAccount>): (m: map<string, CachedAccount>)
    ensures forall i :: 0 <= i < |raw| ==> raw[i].currency in m
    ensures forall c :: c in m ==> exists i :: LastFor(raw, c, i) && m[c] == CachedAccount(raw[i].uuid, raw[i].availableBalance)
    decreases |raw|
  {
    if |raw| == 0 then map[]
    else
      var prefix := raw[..|raw| - 1];
      var last := raw[|raw| - 1];
      var m := BuildCache(prefix)[last.currency := CachedAccount(last.uuid, last.availableBalance)];
      BuildCacheStep(raw, BuildCache(prefix), m);
      m
  }

  /** Adding the last entry to the map of the prefix keeps the "last entry
      wins" description. */
  lemma BuildCacheStep(raw: seq<RawAccount>, before: map<string, CachedAccount>, m: map<string, CachedAccount>)
    requires |raw| > 0
    requires forall i :: 0 <= i < |raw| - 1 ==> raw[i].currency in before
    requires forall c :: c in before ==>
      exists i :: LastFor(raw[..|raw| - 1], c, i) && before[c] == CachedAccount(raw[i].uuid, raw[i].availableBalance)
    requires m == before[raw[|raw| - 1].currency := CachedAccount(raw[|raw| - 1].uuid, raw[|raw| - 1].availableBalance)]
    ensures forall i :: 0 <= i < |raw| ==> raw[i].currency in m
    ensures forall c :: c in m ==> exists i :: LastFor(raw, c, i) && m[c] == CachedAccount(raw[i].uuid, raw[i].availableBalance)
  {
    var n := |raw| - 1;
    var prefix := raw[..n];
    forall c | c in m
      ensures exists i :: LastFor(raw, c, i) && m[c] == CachedAccount(raw[i].uuid, raw[i].availableBalance)
    {
      if c == raw[n].currency {
        assert LastFor(raw, c, n);
      } else {
        assert c in before;
        var i :| LastFor(prefix, c, i) && before[c] == CachedAccount(raw[i].uuid, raw[i].availableBalance);
        assert forall j :: i < j < n ==> raw[j] == prefix[j];
        assert LastFor(raw, c, i);
      }
    }
  }

  /** `raw[i]` is the last entry for currency `c`. */
  predicate LastFor(raw: seq<RawAccount>, c: string, i: int) {
    && 0 <= i < |raw|
    && raw[i].currency == c
    && forall j :: i < j < |raw| ==> raw[j].currency != c
  }

  /** `_get_accounts`. Within the hour the cached map is answered with no
      fetch. Otherwise the list is fetched, the map rebuilt and stamped with
      `now`; a fetch that raises leaves the cache as it was. */
  function GetAccounts(cache: AccountCache, now: int, response: Option<seq<RawAccount>>): (s: Step<map<string, CachedAccount>>)
    ensures s.fetched <==> NeedsRefresh(cache, now)
    ensures s.detailCall.None?
    ensures !s.fetched ==> s.cache == cache && s.result == Success(cache.accounts.value)
    ensures s.fetched && response.Some? ==>
      s.cache == AccountCache(Some(BuildCache(response.value)), now) && s.result == Success(BuildCache(response.value))
    ensures s.fetched && response.None? ==> s.cache == cache && s.result.Failure?
    ensures s.result.Success? ==> s.cache.accounts == Some(s.result.value)
  {
    if !NeedsRefresh(cache, now) then
      Step(cache, false, None, Success(cache.accounts.value))
    else if response.None? then
      Step(cache, true, None, Failure(ClientError(FetchFailed)))
    else
      var m := BuildCache(response.value);
      Step(AccountCache(Some(m), now), true, None, Success(m))
  }

  /** `get_account_by_currency`: `None` for a currency not in the cache,
      asked without a detail call; otherwise the cached uuid and balance
      combined with the account's details. Errors are re-raised. */
  function GetAccountByCurrency(cache: AccountCache, now: int, response: Option<seq<RawAccount>>,
                                detail: string -> Option<AccountDetail>, currency: string): (s: Step<Option<Account>>)
    ensures var a := GetAccounts(cache, now, response);
      && s.cache == a.cache
      && s.fetched == a.fetched
      && (a.result.Failure? ==> s.result.Failure? && s.detailCall.None?)
      && (a.result.Success? && currency !in a.result.value ==> s.result == Success(None) && s.detailCall.None?)
      && (a.result.Success? && currency in a.result.value ==>
            s.detailCall == Some(a.result.value[currency].uuid)
            && (s.result.Success? <==> detail(a.result.value[currency].uuid).Some?))
    ensures s.result.Success? && s.result.value.Some? ==>
      var acct := s.result.value.value;
      && s.cache.accounts.Some?
      && currency in s.cache.accounts.value
      && acct.currency == currency
      && acct.uuid == s.cache.accounts.value[currency].uuid
      && acct.availableBalance == s.cache.accounts.value[currency].availableBalance
      && Some(AccountDetail(acct.name, acct.accountType, acct.active, acct.createdAt)) == detail(acct.uuid)
  {
    var a := GetAccounts(cache, now, response);
    if a.result.Failure? then
      Step(a.cache, a.fetched, None, Failure(a.result.error))
    else if currency !in a.result.value then
      Step(a.cache, a.fetched, None, Success(None))
    else
      var entry := a.result.value[currency];
      match detail(entry.uuid)
      case None =>
        Step(a.cache, a.fetched, Some(entry.uuid), Failure(ClientError(DetailFailed)))
      case Some(d) =>
        Step(a.cache, a.fetched, Some(entry.uuid),
             Success(Some(Account(entry.uuid, currency, entry.availableBalance, d.name, d.accountType, d.active, d.createdAt))))
  }

  /** `get_crypto_balance`: the cached balance, or zero for a currency with
      no account. It goes through `get_account_by_currency`, so it makes the
      same detail call and fails with it. */
  function GetCryptoBalance(cache: AccountCache, now: int, response: Option<seq<RawAccount>>,
                            detail: string -> Option<AccountDetail>, currency: string): (s: Step<Dec>)
    ensures var a := GetAccountByCurrency(cache, now, response, detail, currency);
      s.cache == a.cache && s.fetched == a.fetched && s.detailCall == a.detailCall
      && (s.result.Success? <==> a.result.Success?)
    ensures s.result.Success? ==>
      var m := s.cache.accounts.value;
      if currency in m then s.result.value == m[currency].availableBalance else s.result.value == Zero
  {
    var a := GetAccountByCurrency(cache, now, response, detail, currency);
    match a.result
    case Failure(e) => Step(a.cache, a.fetched, a.detailCall, Failure(e))
    case Success(None) => Step(a.cache, a.fetched, a.detailCall, Success(Zero))
    case Success(Some(acct)) => Step(a.cache, a.fetched, a.detailCall, Success(acct.availableBalance))
  }

  /** The currencies held: every cached entry whose balance is above zero. */
  function HeldBalances(m: map<string, CachedAccount>): (held: map<string, Dec>)
    ensures forall c :: c in held <==> c in m && Value(m[c].availableBalance) > 0.0
    ensures forall c :: c in held ==> held[c] == m[c].availableBalance
  {
    map c | c in m && Value(m[c].availableBalance) > 0.0 :: m[c].availableBalance
  }

  /** `list_held_crypto_balances`. */
  function ListHeldCryptoBalances(cache: AccountCache, now: int, response: Option<seq<RawAccount>>): (s: Step<map<string, Dec>>)
    ensures var a := GetAccounts(cache, now, response);
      s.cache == a.cache && s.fetched == a.fetched && s.detailCall.None?
      && (s.result.Success? <==> a.result.Success?)
      && (s.result.Success? ==> s.result.value == HeldBalances(a.result.value))
  {
    var a := GetAccounts(cache, now, response);
    match a.result
    case Failure(e) => Step(a.cache, a.fetched, None, Failure(e))
    case Success(m) => Step(a.cache, a.fetched, None, Success(HeldBalances(m)))
  }

  /** After a refresh at `t`, every call up to one hour later, whatever the
      exchange would answer, is served from the cache: no fetch and the same
      map. */
  lemma CacheServesWithinHour(cache: AccountCache, t: int, raw: seq<RawAccount>, later: int,
                              response: Option<seq<RawAccount>>)
    requires NeedsRefresh(cache, t)
    requires t <= later <= t + CacheDuration
    ensures var first := GetAccounts(cache, t, Some(raw));
      var second := GetAccounts(first.cache, later, response);
      && !second.fetched
      && second.cache == first.cache
      && second.result == first.result
  {
  }

  /** More than an hour after a refresh, the next call fetches again. */
  lemma CacheExpiresAfterHour(cache: AccountCache, t: int, raw: seq<RawAccount>, later: int,
                              response: Option<seq<RawAccount>>)
    requires NeedsRefresh(cache, t)
    requires later > t + CacheDuration
    ensures GetAccounts(GetAccounts(cache, t, Some(raw)).cache, later, response).fetched
  {
  }

  /** Exactly one hour after a refresh the cache is still used. */
  lemma CacheBoundaryIsInclusive(m: map<string, CachedAccount>, t: int)
    ensures !NeedsRefresh(AccountCache(Some(m), t), t + CacheDuration)
    ensures NeedsRefresh(AccountCache(Some(m), t), t + CacheDuration + 1)
  {
  }

  /** The test's clock: a fetch at 12:00, a hit at 12:30, a fetch at 13:01. */
  lemma CacheExpirationExample(raw: seq<RawAccount>, response: Option<seq<RawAccount>>)
    ensures var first := GetAccounts(EmptyCache, 43200, Some(raw));
      var second := GetAccounts(first.cache, 43200 + 30 * 60, response);
      var third := GetAccounts(second.cache, 43200 + 61 * 60, response);
      first.fetched && !second.fetched && third.fetched
  {
  }

  /** Two accounts for the same currency: the later one is kept. */
  lemma LaterDuplicateWins(a: RawAccount, b: RawAccount)
    requires a.currency == b.currency
    ensures BuildCache([a, b]) == map[b.currency := CachedAccount(b.uuid, b.availableBalance)]
  {
    assert [a, b][..1] == [a];
    assert [a][..0] == [];
  }

  /** A currency with no account has zero balance and asks for no details. */
  lemma UnknownCurrencyHasZeroBalance(m: map<string, CachedAccount>, t: int, now: int,
                                      response: Option<seq<RawAccount>>, detail: string -> Option<AccountDetail>,
                                      currency: string)
    requires currency !in m
    requires now - t <= CacheDuration
    ensures var s := GetCryptoBalance(AccountCache(Some(m), t), now, response, detail, currency);
      s.result == Success(Zero) && s.detailCall.None? && !s.fetched
  {
  }

  /** A zero balance is not held; 1.5 BTC and 100.0 XRP are. */
  lemma HeldBalancesExample()
    ensures var m := map["BTC" := CachedAccount("abc123", Dec(15, -1)),
                         "ETH" := CachedAccount("def456", Dec(0, 0)),
                         "XRP" := CachedAccount("ghi789", Dec(1000, -1))];
      HeldBalances(m).Keys == {"BTC", "XRP"}
  {
    var m := map["BTC" := CachedAccount("abc123", Dec(15, -1)),
                 "ETH" := CachedAccount("def456", Dec(0, 0)),
                 "XRP" := CachedAccount("ghi789", Dec(1000, -1))];
    assert Scale(-1) == 0.1;
    assert Value(m["BTC"].availableBalance) > 0.0;
    assert Value(m["XRP"].availableBalance) > 0.0;
    assert Value(m["ETH"].availableBalance) == 0.0;
  }
}

=== FILE: dca.dfy ===
/** `dca.py`: one run of the dollar-cost-averaging bot.

    A run reconciles the order ledger with the exchange, cancels open orders
    older than the time-in-force, and then buys `QUOTE_AMOUNT` of BTC-USD:
    at market when there are at least `FALLBACK_DAYS` limit orders from the
    last `FALLBACK_DAYS` days and none of them is marked filled, and
    otherwise with a limit order 2% under the current price. The ledger is a
    sequence of records passed in and handed back; loading and saving the
    JSON file is not part of this model. The exchange is the `Exchange`
    value below and the clock is `now`, both in whole seconds.
 */
module Dca {
  import opened Wrappers
  import opened Decimals

  /** `QUOTE_AMOUNT = "1"`: the USD spent per run. */
  const QuoteAmount: real := 1.0

  /** `PRICE_DISCOUNT = 0.98`, the limit price as a fraction of the spot price. */
  const PriceDiscount: real := 0.98

  /** `TIF_HOURS`: open orders older than this are cancelled. */
  const TifHours: int := 24

  /** `FALLBACK_DAYS`: the look-back window, in whole days, and the number of
      unfilled limit orders in it that triggers the market fallback. */
  const FallbackDays: int := 3

  const SecondsPerHour: int := 3600
  const SecondsPerDay: int := 86400

  const MarketType: string := "market"
  const LimitType: string := "limit"
  const FilledStatus: string := "filled"

  /** One entry of the order history. Every key is optional, as in the JSON
      objects the file holds: `type`, `order_id`, `filled`, `status`, and
      `time` (as seconds). */
  datatype LedgerRecord = LedgerRecord(
    kind: Option<string>,
    orderId: Option<string>,
    filled: Option<bool>,
    status: Option<string>,
    time: Option<int>)

  type Ledger = seq<LedgerRecord>

  // ---------------------------------------------------------------------
  // Reconciliation: update_order_statuses
  // ---------------------------------------------------------------------

  /** `str.lower` on one character, for the ASCII letters. */
  function LowerChar(c: char): char {
    if 'A' <= c <= 'Z' then (c as int + 32) as char else c
  }

  /** `str.lower` on ASCII text. */
  function Lower(s: string): (t: string)
    ensures |t| == |s|
    ensures forall i :: 0 <= i < |s| ==> t[i] == LowerChar(s[i])
  {
    if |s| == 0 then "" else [LowerChar(s[0])] + Lower(s[1..])
  }

  /** Lower-casing twice changes nothing more. */
  lemma LowerIdempotent(s: string)
    ensures Lower(Lower(s)) == Lower(s)
  {
  }

  /** The record is looked up: it has an order id and no `filled` key yet. */
  predicate NeedsLookup(r: LedgerRecord) {
    r.orderId.Some? && r.filled.None?
  }

  /** The body of the loop in `update_order_statuses`. `getOrder` answers
      the exchange's status string for an order id, or `None` when
      `get_order` raised or its answer had no string `status`; the record is
      then left as it was. */
  function ReconcileRecord(getOrder: string -> Option<string>, r: LedgerRecord): (u: LedgerRecord)
    ensures u.kind == r.kind && u.orderId == r.orderId && u.time == r.time
    ensures !NeedsLookup(r) ==> u == r
    ensures NeedsLookup(r) && getOrder(r.orderId.value).None? ==> u == r
    ensures NeedsLookup(r) && getOrder(r.orderId.value).Some? ==>
      var status := Lower(getOrder(r.orderId.value).value);
      u.status == Some(status) && u.filled == Some(status == FilledStatus)
  {
    if !NeedsLookup(r) then r
    else match getOrder(r.orderId.value)
      case None => r
      case Some(s) =>
        var status := Lower(s);
        r.(status := Some(status), filled := Some(status == FilledStatus))
  }

  /** `update_order_statuses`: every record reconciled in place; the ledger
      keeps its length and order. */
  function Reconcile(getOrder: string -> Option<string>, ledger: Ledger): (out: Ledger)
    ensures |out| == |ledger|
    ensures forall i :: 0 <= i < |ledger| ==> out[i] == ReconcileRecord(getOrder, ledger[i])
  {
    if |ledger| == 0 then []
    else [ReconcileRecord(getOrder, ledger[0])] + Reconcile(getOrder, ledger[1..])
  }

  /** The order ids `update_order_statuses` asks the exchange about, in order. */
  function Queried(ledger: Ledger): (ids: seq<string>)
    ensures forall id :: id in ids <==> exists i :: 0 <= i < |ledger| && NeedsLookup(ledger[i]) && ledger[i].orderId.value == id
  {
    if |ledger| == 0 then []
    else
      var rest := Queried(ledger[1..]);
      assert forall i :: 1 <= i < |ledger| ==> ledger[i] == ledger[1..][i - 1];
      if NeedsLookup(ledger[0]) then [ledger[0].orderId.value] + rest else rest
  }

  /** Reconciliation depends on the exchange only through the queried ids:
      two exchanges that agree on those give the same ledger. */
  lemma ReconcileDependsOnlyOnQueried(g1: string -> Option<string>, g2: string -> Option<string>, ledger: Ledger)
    requires forall id :: id in Queried(ledger) ==> g1(id) == g2(id)
    ensures Reconcile(g1, ledger) == Reconcile(g2, ledger)
  {
    forall i | 0 <= i < |ledger|
      ensures Reconcile(g1, ledger)[i] == Reconcile(g2, ledger)[i]
    {
      if NeedsLookup(ledger[i]) {
        assert ledger[i].orderId.value in Queried(ledger);
      }
    }
  }

  /** Running reconciliation again with the same exchange answers changes
      nothing: a record that got a status now has `filled`, and one whose
      lookup failed fails again. */
  lemma ReconcileIdempotent(getOrder: string -> Option<string>, ledger: Ledger)
    ensures Reconcile(getOrder, Reconcile(getOrder, ledger)) == Reconcile(getOrder, ledger)
  {
    var once := Reconcile(getOrder, ledger);
    forall i | 0 <= i < |ledger|
      ensures Reconcile(getOrder, once)[i] == once[i]
    {
      if NeedsLookup(once[i]) {
        assert once[i] == ledger[i];
      }
    }
  }

  /** A `filled` value, once recorded, is never changed or removed. */
  lemma ReconcileKeepsFilled(getOrder: string -> Option<string>, ledger: Ledger, i: int)
    requires 0 <= i < |ledger| && ledger[i].filled.Some?
    ensures Reconcile(getOrder, ledger)[i] == ledger[i]
  {
  }

  /** A ledger where every record has `filled` asks nothing and is returned
      as it is, whatever the exchange says. */
  lemma FilledLedgerIsFixed(getOrder: string -> Option<string>, ledger: Ledger)
    requires forall i :: 0 <= i < |ledger| ==> ledger[i].filled.Some?
    ensures Queried(ledger) == []
    ensures Reconcile(getOrder, ledger) == ledger
  {
  }

  /** "FILLED" from the exchange marks the record filled; "OPEN" does not. */
  lemma StatusExample(id: string)
    ensures var r := LedgerRecord(Some(LimitType), Some(id), None, None, Some(0));
      && ReconcileRecord(_ => Some("FILLED"), r).filled == Some(true)
      && ReconcileRecord(_ => Some("FILLED"), r).status == Some("filled")
      && ReconcileRecord(_ => Some("OPEN"), r).filled == Some(false)
  {
    assert Lower("FILLED") == "filled";
    assert Lower("OPEN") == "open";
  }

  // ---------------------------------------------------------------------
  // Step 1: cancelling stale open orders
  // ---------------------------------------------------------------------

  /** An entry of `list_orders(order_status="OPEN")`, its creation time in seconds. */
  datatype OpenOrder = OpenOrder(orderId: string, createdTime: int)

  /** Its age in hours is strictly more than the time-in-force. */
  predicate IsStale(o: OpenOrder, now: int) {
    (now - o.createdTime) as real / SecondsPerHour as real > TifHours as real
  }

  /** Stale means strictly more than 86400 seconds old: an order exactly a
      day old is kept. */
  lemma StaleIffOlderThanADay(o: OpenOrder, now: int)
    ensures IsStale(o, now) <==> now - o.createdTime > SecondsPerDay
  {
    var age := (now - o.createdTime) as real;
    assert age / 3600.0 > 24.0 <==> age > 86400.0;
  }

  /** How many of the first `k` open orders are stale. */
  function StaleBefore(open: seq<OpenOrder>, k: nat, now: int): (n: nat)
    requires k <= |open|
    ensures n <= k
  {
    if k == 0 then 0
    else (if IsStale(open[0], now) then 1 else 0) + StaleBefore(open[1..], k - 1, now)
  }

  /** The ids of the stale open orders, in listing order: the stale order at
      position `k` comes after the `StaleBefore(open, k, now)` stale orders
      listed before it. */
  function StaleIds(open: seq<OpenOrder>, now: int): (ids: seq<string>)
    ensures |ids| == StaleBefore(open, |open|, now) <= |open|
    ensures forall k :: 0 <= k < |open| && IsStale(open[k], now) ==>
      StaleBefore(open, k, now) < |ids| && ids[StaleBefore(open, k, now)] == open[k].orderId
    ensures forall id :: id in ids <==> exists i :: 0 <= i < |open| && open[i].orderId == id && IsStale(open[i], now)
  {
    if |open| == 0 then []
    else
      var rest := StaleIds(open[1..], now);
      assert forall i :: 1 <= i < |open| ==> open[i] == open[1..][i - 1];
      if IsStale(open[0], now) then [open[0].orderId] + rest else rest
  }

  /** A stale order listed before another stale order has fewer stale
      orders before it. */
  lemma {:induction false} StaleBeforeIncreases(open: seq<OpenOrder>, i: nat, j: nat, now: int)
    requires i < j <= |open| && IsStale(open[i], now)
    ensures StaleBefore(open, i, now) < StaleBefore(open, j, now)
  {
    if i > 0 {
      StaleBeforeIncreases(open[1..], i - 1, j - 1, now);
    }
  }

  /** Of two stale orders, the one listed first is cancelled first. */
  lemma StaleIdsKeepListingOrder(open: seq<OpenOrder>, now: int, i: nat, j: nat)
    requires i < j < |open| && IsStale(open[i], now) && IsStale(open[j], now)
    ensures var ids, a, b := StaleIds(open, now), StaleBefore(open, i, now), StaleBefore(open, j, now);
      a < b < |ids| && ids[a] == open[i].orderId && ids[b] == open[j].orderId
  {
    StaleBeforeIncreases(open, i, j, now);
  }

  /** The cancel requests made, and whether all of them returned. */
  datatype Cancellation = Cancellation(attempted: seq<string>, completed: bool)

  /** `cancel_orders` for each stale id in turn. `cancel` is false for a call
      that raised; nothing catches that exception, so the loop stops there. */
  function CancelAll(ids: seq<string>, cancel: string -> bool): (c: Cancellation)
    ensures |c.attempted| <= |ids| && c.attempted == ids[..|c.attempted|]
    ensures c.completed <==> forall k :: 0 <= k < |ids| ==> cancel(ids[k])
    ensures c.completed ==> c.attempted == ids
    ensures !c.completed ==>
      && |c.attempted| > 0
      && !cancel(c.attempted[|c.attempted| - 1])
      && forall k :: 0 <= k < |c.attempted| - 1 ==> cancel(c.attempted[k])
  {
    if |ids| == 0 then Cancellation([], true)
    else if !cancel(ids[0]) then Cancellation([ids[0]], false)
    else
      var rest := CancelAll(ids[1..], cancel);
      assert forall k :: 1 <= k < |ids| ==> ids[k] == ids[1..][k - 1];
      Cancellation([ids[0]] + rest.attempted, rest.completed)
  }

  /** Exactly one day old is kept, one second more is cancelled. */
  lemma StaleBoundaryExample(id: string, created: int)
    ensures StaleIds([OpenOrder(id, created)], created + SecondsPerDay) == []
    ensures StaleIds([OpenOrder(id, created)], created + SecondsPerDay + 1) == [id]
  {
    StaleIffOlderThanADay(OpenOrder(id, created), created + SecondsPerDay);
    StaleIffOlderThanADay(OpenOrder(id, created), created + SecondsPerDay + 1);
  }

  // ---------------------------------------------------------------------
  // Step 2: the fallback decision
  // ---------------------------------------------------------------------

  /** `timedelta.days` of `now - t`: whole days, rounded down (negative for
      a time in the future). */
  function DaysBetween(now: int, t: int): (d: int)
    ensures d * SecondsPerDay <= now - t < (d + 1) * SecondsPerDay
  {
    (now - t) / SecondsPerDay
  }

  /** The filter of `recent_limit_orders`: a limit record whose whole-day age
      is under `FALLBACK_DAYS`. Defined for records whose keys it reads. */
  predicate IsRecentLimit(r: LedgerRecord, now: int)
    requires HasFallbackKeys(r)
  {
    r.kind.value == LimitType && DaysBetween(now, r.time.value) < FallbackDays
  }

  /** The filter reads `type` on every record and `time` on limit records;
      a missing key raises KeyError. */
  predicate HasFallbackKeys(r: LedgerRecord) {
    r.kind.Some? && (r.kind.value == LimitType ==> r.time.Some?)
  }

  /** `recent_limit_orders`, or the KeyError of the first record that lacks
      a key the filter reads. */
  function RecentLimitRecords(ledger: Ledger, now: int): (r: Result<Ledger, Error>)
    ensures r.Success? <==> forall i :: 0 <= i < |ledger| ==> HasFallbackKeys(ledger[i])
    ensures r.Success? ==> |r.value| <= |ledger|
    ensures r.Success? ==> forall x :: x in r.value <==> x in ledger && HasFallbackKeys(x) && IsRecentLimit(x, now)
  {
    if |ledger| == 0 then Success([])
    else
      var n := |ledger| - 1;
      var last := ledger[n];
      var before := RecentLimitRecords(ledger[..n], now);
      assert forall i :: 0 <= i < n ==> ledger[..n][i] == ledger[i];
      assert forall x :: x in ledger <==> x in ledger[..n] || x == last by {
        assert ledger == ledger[..n] + [last];
      }
      if before.Failure? then before
      else if last.kind.None? then Failure(KeyError("type"))
      else if last.kind.value == LimitType && last.time.None? then Failure(KeyError("time"))
      else if IsRecentLimit(last, now) then Success(before.value + [last])
      else before
  }

  /** Appending a record extends the filter by that record when it is a
      recent limit record, and leaves it alone otherwise; in particular a
      market record never counts. */
  lemma RecentLimitRecordsAppend(ledger: Ledger, x: LedgerRecord, now: int)
    requires RecentLimitRecords(ledger, now).Success?
    requires HasFallbackKeys(x)
    ensures RecentLimitRecords(ledger + [x], now)
            == Success(RecentLimitRecords(ledger, now).value + (if IsRecentLimit(x, now) then [x] else []))
  {
    var l := ledger + [x];
    assert l[..|l| - 1] == ledger;
    assert l[|l| - 1] == x;
    var before := RecentLimitRecords(ledger, now);
    if IsRecentLimit(x, now) {
      assert RecentLimitRecords(l, now) == Success(before.value + [x]);
    } else {
      assert RecentLimitRecords(l, now) == before;
      assert before.value + [] == before.value;
    }
  }

  /** `any_filled`: some recent record has a truthy `filled`. */
  predicate AnyFilled(recent: Ledger) {
    exists i :: 0 <= i < |recent| && recent[i].filled == Some(true)
  }

  /** The fallback condition: no recent fill, and at least `FALLBACK_DAYS`
      recent limit records. */
  predicate ChooseMarket(recent: Ledger) {
    !AnyFilled(recent) && |recent| >= FallbackDays
  }

  /** A limit record an hour old, not filled. */
  function HourOldUnfilled(id: string, now: int): LedgerRecord {
    LedgerRecord(Some(LimitType), Some(id), Some(false), None, Some(now - SecondsPerHour))
  }

  /** Two recent unfilled limit records keep the limit path. */
  lemma FallbackTwoRecentExample(now: int, a: string, b: string)
    ensures var ra, rb := HourOldUnfilled(a, now), HourOldUnfilled(b, now);
      && RecentLimitRecords([ra, rb], now) == Success([ra, rb])
      && !ChooseMarket([ra, rb])
  {
    var ra, rb := HourOldUnfilled(a, now), HourOldUnfilled(b, now);
    assert DaysBetween(now, now - SecondsPerHour) == 0;
    RecentLimitRecordsAppend([], ra, now);
    assert [] + [ra] == [ra];
    RecentLimitRecordsAppend([ra], rb, now);
    assert [ra] + [rb] == [ra, rb];
  }

  /** A third one chooses the market path. */
  lemma FallbackThreeRecentExample(now: int, a: string, b: string, c: string)
    ensures var ra, rb, rc := HourOldUnfilled(a, now), HourOldUnfilled(b, now), HourOldUnfilled(c, now);
      && RecentLimitRecords([ra, rb, rc], now) == Success([ra, rb, rc])
      && ChooseMarket([ra, rb, rc])
  {
    var ra, rb, rc := HourOldUnfilled(a, now), HourOldUnfilled(b, now), HourOldUnfilled(c, now);
    FallbackTwoRecentExample(now, a, b);
    RecentLimitRecordsAppend([ra, rb], rc, now);
    assert [ra, rb] + [rc] == [ra, rb, rc];
  }

  /** A limit record exactly three days old has left the window; one second
      younger, it is still in it. */
  lemma WindowBoundaryExample(id: string, now: int)
    ensures !IsRecentLimit(LedgerRecord(Some(LimitType), Some(id), None, None, Some(now - 3 * SecondsPerDay)), now)
    ensures IsRecentLimit(LedgerRecord(Some(LimitType), Some(id), None, None, Some(now - 3 * SecondsPerDay + 1)), now)
  {
    assert DaysBetween(now, now - 3 * SecondsPerDay) == 3;
    assert DaysBetween(now, now - 3 * SecondsPerDay + 1) == 2;
  }

  // ---------------------------------------------------------------------
  // Step 3: the limit order's price and size
  // ---------------------------------------------------------------------

  /** `math.floor(current_price * PRICE_DISCOUNT * 100)`: the discounted
      price in whole cents, rounded down. */
  function LimitPriceCents(price: real): (cents: int)
    ensures cents as real / 100.0 <= price * PriceDiscount < cents as real / 100.0 + 0.01
  {
    (price * 98.0).Floor
  }

  /** `round(QUOTE_AMOUNT / limit_price, 6)`: the base size to six decimals,
      ties to even, as Python's `round` does. A limit price of zero cents
      divides by zero. */
  function LimitBaseSize(cents: int): (size: Result<Dec, Error>)
    ensures size.Failure? <==> cents == 0
    ensures size.Success? ==> size.value.exp == -6
    ensures size.Success? ==>
      var exact := QuoteAmount / (cents as real / 100.0);
      exact - Scale(-6) / 2.0 <= Value(size.value) <= exact + Scale(-6) / 2.0
    ensures size.Success? ==>
      var exact := QuoteAmount / (cents as real / 100.0);
      Value(size.value) == exact - Scale(-6) / 2.0 || Value(size.value) == exact + Scale(-6) / 2.0
      ==> size.value.coef % 2 == 0
  {
    if cents == 0 then Failure(ZeroDivisionError("float division by zero"))
    else Success(Quantize(QuoteAmount / (cents as real / 100.0), -6, HalfEven))
  }

  /** A price of 100.00 gives a limit of 98.00 and a size of 0.010204. */
  lemma LimitArithmeticExample()
    ensures LimitPriceCents(100.0) == 9800
    ensures LimitBaseSize(9800) == Success(Dec(10204, -6))
  {
    assert Scale(-6) == 0.000001;
    var y := (1.0 / 98.0) / Scale(-6);
    assert y == 1000000.0 / 98.0;
    assert RoundHalfEven(y) == 10204;
  }

  // ---------------------------------------------------------------------
  // The run
  // ---------------------------------------------------------------------

  /** The answer to an order request: the client raised, or a response with
      its `success` flag and `success_response["order_id"]`. */
  datatype PlaceReply = PlaceRaised | PlaceResponse(success: bool, orderId: Option<string>)

  /** Everything a run asks the exchange, as values. */
  datatype Exchange = Exchange(
    getOrder: string -> Option<string>,      // get_order(order_id)["status"]
    openOrders: Option<seq<OpenOrder>>,      // list_orders(OPEN), None if it raised
    cancel: string -> bool,                  // cancel_orders([id]) returned
    marketBuy: PlaceReply,                   // market_order_buy(quote_size=QUOTE_AMOUNT)
    productPrice: Option<real>,              // float(get_product()["price"]), None if that raised
    limitBuy: (Dec, Dec) -> PlaceReply)      // limit_order_gtc_buy(limit_price, base_size)

  /** The order request a run sent, if any. */
  datatype Attempt = NoAttempt | MarketAttempt | LimitAttempt(limitPrice: Dec, baseSize: Dec)

  /** How a run ends: without credentials nothing happens; an exception
      outside the placement `try` ends it before the ledger is saved;
      otherwise the ledger is saved. */
  datatype RunOutcome =
    | MissingCredentials
    | Aborted(cancelled: seq<string>)
    | Saved(ledger: Ledger, cancelled: seq<string>, attempt: Attempt)

  /** The record appended for an accepted order: a market order is recorded
      as filled, a limit order as not filled. */
  function NewRecord(kind: string, orderId: string, now: int): (r: LedgerRecord)
    ensures r.kind == Some(kind) && r.orderId == Some(orderId) && r.time == Some(now) && r.status.None?
    ensures r.filled == Some(kind == MarketType)
  {
    LedgerRecord(Some(kind), Some(orderId), Some(kind == MarketType), None, Some(now))
  }

  /** The reply reports success and carries an order id. */
  predicate Accepted(reply: PlaceReply) {
    reply.PlaceResponse? && reply.success && reply.orderId.Some?
  }

  /** What a placement adds to the ledger: one record when the reply reports
      success with an order id, nothing otherwise (a failed or raising
      placement is caught and only printed). */
  function Appended(reply: PlaceReply, kind: string, now: int): (added: Ledger)
    ensures |added| <= 1
    ensures |added| == 1 <==> Accepted(reply)
    ensures |added| == 1 ==> added[0] == NewRecord(kind, reply.orderId.value, now)
  {
    if Accepted(reply) then [NewRecord(kind, reply.orderId.value, now)]
    else []
  }

  /** The limit branch: price, size, request, record. A missing price or a
      zero-cent limit ends the branch before any request. */
  function LimitStep(ex: Exchange, now: int): (r: (Attempt, Ledger))
    ensures r.0.LimitAttempt? <==> ex.productPrice.Some? && LimitPriceCents(ex.productPrice.value) != 0
    ensures r.0.LimitAttempt? ==>
      && r.0.limitPrice == Dec(LimitPriceCents(ex.productPrice.value), -2)
      && Success(r.0.baseSize) == LimitBaseSize(LimitPriceCents(ex.productPrice.value))
      && r.1 == Appended(ex.limitBuy(r.0.limitPrice, r.0.baseSize), LimitType, now)
    ensures r.0.NoAttempt? ==> r.1 == []
    ensures !r.0.MarketAttempt?
  {
    if ex.productPrice.None? then (NoAttempt, [])
    else
      var cents := LimitPriceCents(ex.productPrice.value);
      match LimitBaseSize(cents)
      case Failure(_) => (NoAttempt, [])
      case Success(size) =>
        var price := Dec(cents, -2);
        (LimitAttempt(price, size), Appended(ex.limitBuy(price, size), LimitType, now))
  }

  /** `main`, from the credential check to the save. */
  function Run(hasCredentials: bool, ex: Exchange, ledger: Ledger, now: int): (o: RunOutcome)
    ensures o.MissingCredentials? <==> !hasCredentials
    ensures o.Aborted? <==>
      hasCredentials &&
      (|| ex.openOrders.None?
       || !CancelAll(StaleIds(ex.openOrders.value, now), ex.cancel).completed
       || RecentLimitRecords(Reconcile(ex.getOrder, ledger), now).Failure?)
    ensures o.Saved? ==> o.cancelled == StaleIds(ex.openOrders.value, now)
    // the cancels already sent when the run is cut short
    ensures o.Aborted? && ex.openOrders.None? ==> o.cancelled == []
    ensures o.Aborted? && ex.openOrders.Some? ==>
      o.cancelled == CancelAll(StaleIds(ex.openOrders.value, now), ex.cancel).attempted
    ensures o.Aborted? && ex.openOrders.Some? && CancelAll(StaleIds(ex.openOrders.value, now), ex.cancel).completed ==>
      o.cancelled == StaleIds(ex.openOrders.value, now)
    // at most one record is added, after the reconciled ledger
    ensures o.Saved? ==> |ledger| <= |o.ledger| <= |ledger| + 1
    ensures o.Saved? ==> o.ledger[..|ledger|] == Reconcile(ex.getOrder, ledger)
    // the market path is taken exactly when the fallback condition holds
    ensures o.Saved? ==>
      (o.attempt.MarketAttempt? <==> ChooseMarket(RecentLimitRecords(Reconcile(ex.getOrder, ledger), now).value))
    // a record is added only for an accepted request, and says which
    ensures o.Saved? && o.attempt.NoAttempt? ==> |o.ledger| == |ledger|
    // the limit request is the one `LimitStep` computes from the product price
    ensures o.Saved? && !o.attempt.MarketAttempt? ==> o.attempt == LimitStep(ex, now).0
    // an accepted request is always recorded
    ensures o.Saved? ==>
      (|o.ledger| == |ledger| + 1 <==>
         || (o.attempt.MarketAttempt? && Accepted(ex.marketBuy))
         || (o.attempt.LimitAttempt? && Accepted(ex.limitBuy(o.attempt.limitPrice, o.attempt.baseSize))))
    ensures o.Saved? ==>
      o.ledger == Reconcile(ex.getOrder, ledger)
                  + (if o.attempt.MarketAttempt? then Appended(ex.marketBuy, MarketType, now) else LimitStep(ex, now).1)
    ensures o.Saved? && |o.ledger| > |ledger| ==>
      var added := o.ledger[|ledger|];
      && added.orderId.Some?
      && (o.attempt.MarketAttempt? ==>
            ex.marketBuy == PlaceResponse(true, added.orderId) && added == NewRecord(MarketType, added.orderId.value, now))
      && (o.attempt.LimitAttempt? ==>
            ex.limitBuy(o.attempt.limitPrice, o.attempt.baseSize) == PlaceResponse(true, added.orderId)
            && added == NewRecord(LimitType, added.orderId.value, now))
  {
    if !hasCredentials then MissingCredentials
    else
      var reconciled := Reconcile(ex.getOrder, ledger);
      if ex.openOrders.None? then Aborted([])
      else
        var c := CancelAll(StaleIds(ex.openOrders.value, now), ex.cancel);
        if !c.completed then Aborted(c.attempted)
        else match RecentLimitRecords(reconciled, now)
          case Failure(_) => Aborted(c.attempted)
          case Success(recent) =>
            if ChooseMarket(recent) then
              var added := Appended(ex.marketBuy, MarketType, now);
              assert (reconciled + added)[..|ledger|] == reconciled;
              Saved(reconciled + added, c.attempted, MarketAttempt)
            else
              var step := LimitStep(ex, now);
              assert (reconciled + step.1)[..|ledger|] == reconciled;
              Saved(reconciled + step.1, c.attempted, step.0)
  }

  // ---------------------------------------------------------------------
  // What runs do to the ledger over time
  // ---------------------------------------------------------------------

  /** A record as a run appends it: market or limit, with an order id, a
      time and a `filled` value. */
  predicate IsBotRecord(r: LedgerRecord) {
    && r.kind.Some? && (r.kind.value == MarketType || r.kind.value == LimitType)
    && r.orderId.Some? && r.time.Some?
    && r.filled == Some(r.kind.value == MarketType)
  }

  /** A ledger built only by runs. */
  predicate IsBotLedger(ledger: Ledger) {
    forall i :: 0 <= i < |ledger| ==> IsBotRecord(ledger[i])
  }

  /** Runs keep a ledger built by runs in that shape: reconciliation leaves
      every record alone and asks the exchange nothing, the fallback filter
      never fails, and the record added is of the same kind. */
  lemma RunPreservesBotLedger(ex: Exchange, ledger: Ledger, now: int)
    requires IsBotLedger(ledger)
    ensures Queried(ledger) == []
    ensures Reconcile(ex.getOrder, ledger) == ledger
    ensures RecentLimitRecords(ledger, now).Success?
    ensures Run(true, ex, ledger, now).Saved? ==> IsBotLedger(Run(true, ex, ledger, now).ledger)
  {
    FilledLedgerIsFixed(ex.getOrder, ledger);
    var o := Run(true, ex, ledger, now);
    if o.Saved? && |o.ledger| > |ledger| {
      var added := o.ledger[|ledger|];
      assert IsBotRecord(added);
      assert o.ledger == ledger + [added] by {
        assert o.ledger == o.ledger[..|ledger|] + [added];
      }
    }
  }

  /** On a ledger built by runs no limit record is marked filled, so the
      fallback condition only counts recent limit records. */
  lemma BotLedgerHasNoFills(ledger: Ledger, now: int)
    requires IsBotLedger(ledger)
    ensures RecentLimitRecords(ledger, now).Success?
    ensures !AnyFilled(RecentLimitRecords(ledger, now).value)
    ensures ChooseMarket(RecentLimitRecords(ledger, now).value) <==> |RecentLimitRecords(ledger, now).value| >= FallbackDays
  {
    var recent := RecentLimitRecords(ledger, now).value;
    forall i | 0 <= i < |recent|
      ensures recent[i].filled != Some(true)
    {
      assert recent[i] in recent;
      var j :| 0 <= j < |ledger| && ledger[j] == recent[i];
      assert IsBotRecord(ledger[j]);
    }
  }

  /** Hence a run on such a ledger takes the market path exactly when there
      are at least three recent limit records, however many of those orders
      the exchange has in fact filled. */
  lemma FallbackIgnoresExchangeFills(ex: Exchange, ledger: Ledger, now: int)
    requires IsBotLedger(ledger)
    ensures var o := Run(true, ex, ledger, now);
      o.Saved? ==> (o.attempt.MarketAttempt? <==> |RecentLimitRecords(ledger, now).value| >= FallbackDays)
  {
    FilledLedgerIsFixed(ex.getOrder, ledger);
    BotLedgerHasNoFills(ledger, now);
  }

  /** The record a run appends is never looked up again: any later
      reconciliation, with any exchange answers, leaves it as it is. */
  lemma AppendedRecordNeverRequeried(ex: Exchange, ledger: Ledger, now: int, later: string -> Option<string>)
    requires Run(true, ex, ledger, now).Saved?
    requires |Run(true, ex, ledger, now).ledger| > |ledger|
    ensures var out := Run(true, ex, ledger, now).ledger;
      !NeedsLookup(out[|ledger|]) && Reconcile(later, out)[|ledger|] == out[|ledger|]
  {
    var out := Run(true, ex, ledger, now).ledger;
    assert out[|ledger|].filled.Some?;
    ReconcileKeepsFilled(later, out, |ledger|);
  }
}

=== FILE: decimals.dfy ===
/** Python's `decimal.Decimal`, as far as the modelled code uses it.

    A decimal is a coefficient and a base-ten exponent, exactly as Python
    stores it: `Decimal('0.01')` is `Dec(1, -2)` and `Decimal('61536')` is
    `Dec(61536, 0)`. `quantize(q)` looks only at the exponent of `q` and rounds
    to that many places; the rounding mode is an argument (`ROUND_HALF_UP`
    where the source names it, `ROUND_HALF_EVEN` from the default context
    otherwise). Arithmetic is exact: the 28-digit context precision is not
    modelled.
 */
module Decimals {

  datatype Dec = Dec(coef: int, exp: int)

  datatype Rounding =
    | HalfUp    // ROUND_HALF_UP: ties go away from zero
    | HalfEven  // ROUND_HALF_EVEN: ties go to the even neighbour

  /** 10^n. */
  function Up(n: nat): (s: real)
    ensures s >= 1.0
  {
    if n == 0 then 1.0 else 10.0 * Up(n - 1)
  }

  /** 10^-n. */
  function Down(n: nat): (s: real)
    ensures 0.0 < s <= 1.0
  {
    if n == 0 then 1.0 else Down(n - 1) / 10.0
  }

  /** 10^e as an exact rational, for a positive or negative exponent. */
  function Scale(e: int): (s: real)
    ensures s > 0.0
  {
    if e >= 0 then Up(e) else Down(-e)
  }

  /** The number a decimal denotes; Python compares decimals by this. */
  function Value(d: Dec): real {
    d.coef as real * Scale(d.exp)
  }

  predicate IsIntegral(y: real) {
    y.Floor as real == y
  }

  /** Nearest integer, ties away from zero. */
  function RoundHalfUp(y: real): (n: int)
    ensures y >= 0.0 ==> -0.5 <= y - n as real < 0.5
    ensures y < 0.0 ==> -0.5 < y - n as real <= 0.5
  {
    if y >= 0.0 then (y + 0.5).Floor else -((0.5 - y).Floor)
  }

  /** Nearest integer, ties to the even one. */
  function RoundHalfEven(y: real): (n: int)
    ensures -0.5 <= y - n as real <= 0.5
    ensures y - n as real == 0.5 || y - n as real == -0.5 ==> n % 2 == 0
  {
    var f := y.Floor;
    var d := y - f as real;
    if d < 0.5 then f
    else if d > 0.5 then f + 1
    else if f % 2 == 0 then f
    else f + 1
  }

  function Round(y: real, mode: Rounding): int {
    match mode
    case HalfUp => RoundHalfUp(y)
    case HalfEven => RoundHalfEven(y)
  }

  lemma RoundIntegral(y: real, mode: Rounding)
    ensures IsIntegral(y) ==> Round(y, mode) as real == y
  {
    if IsIntegral(y) {
      var k := y.Floor;
      var n := Round(y, mode);
      assert -0.5 <= (k - n) as real <= 0.5;
      assert k - n == 0;
    }
  }

  /** Scaling a rounding error of at most one half by `s`. */
  lemma ScaleBounds(t: real, s: real)
    requires s > 0.0
    requires -0.5 <= t <= 0.5
    ensures -s / 2.0 <= t * s <= s / 2.0
    ensures t < 0.5 ==> t * s < s / 2.0
    ensures -0.5 < t ==> -s / 2.0 < t * s
    ensures t * s == s / 2.0 ==> t == 0.5
    ensures t * s == -s / 2.0 ==> t == -0.5
  {
    if t >= 0.0 {
      assert t * s <= 0.5 * s;
    } else {
      assert t * s >= -0.5 * s;
    }
  }

  /** If `m` is within one half of `y`, then `m * s` is within `s / 2` of `y * s`. */
  lemma NearestScaled(x: real, s: real, y: real, m: real)
    requires s > 0.0
    requires y * s == x
    requires -0.5 <= m - y <= 0.5
    ensures x - s / 2.0 <= m * s <= x + s / 2.0
    ensures m - y < 0.5 ==> m * s < x + s / 2.0
    ensures -0.5 < m - y ==> x - s / 2.0 < m * s
    ensures m * s == x + s / 2.0 || m * s == x - s / 2.0 ==> m - y == 0.5 || m - y == -0.5
    ensures m == y ==> m * s == x
  {
    var t := m - y;
    assert t * s == m * s - x;
    ScaleBounds(t, s);
  }

  /** `Decimal(x).quantize(Decimal(10^e), rounding=mode)` for the exact number `x`. */
  function Quantize(x: real, e: int, mode: Rounding): (d: Dec)
    ensures d.exp == e
    ensures x - Scale(e) / 2.0 <= Value(d) <= x + Scale(e) / 2.0
    ensures IsIntegral(x / Scale(e)) ==> Value(d) == x
    ensures mode == HalfUp && x >= 0.0 ==> x - Scale(e) / 2.0 < Value(d)
    ensures mode == HalfUp && x < 0.0 ==> Value(d) < x + Scale(e) / 2.0
    ensures mode == HalfEven && (Value(d) == x - Scale(e) / 2.0 || Value(d) == x + Scale(e) / 2.0)
            ==> d.coef % 2 == 0
  {
    var s := Scale(e);
    var n := Round(x / s, mode);
    QuantizeError(x, s, mode, n);
    assert Value(Dec(n, e)) == n as real * s;
    Dec(n, e)
  }

  /** The rounding error of `Round(x / s)`, carried back to the scale of `x`. */
  lemma QuantizeError(x: real, s: real, mode: Rounding, n: int)
    requires s > 0.0
    requires n == Round(x / s, mode)
    ensures x - s / 2.0 <= n as real * s <= x + s / 2.0
    ensures IsIntegral(x / s) ==> n as real * s == x
    ensures mode == HalfUp && x >= 0.0 ==> x - s / 2.0 < n as real * s
    ensures mode == HalfUp && x < 0.0 ==> n as real * s < x + s / 2.0
    ensures mode == HalfEven && (n as real * s == x - s / 2.0 || n as real * s == x + s / 2.0)
            ==> n % 2 == 0
  {
    var y := x / s;
    DivMul(x, s);
    SignOfQuotient(x, s);
    RoundIntegral(y, mode);
    if mode == HalfUp {
      assert n == RoundHalfUp(y);
      NearestScaled(x, s, y, n as real);
    } else {
      assert n == RoundHalfEven(y);
      NearestScaled(x, s, y, n as real);
    }
  }

  lemma DivMul(x: real, s: real)
    requires s > 0.0
    ensures (x / s) * s == x
  {
  }

  lemma SignOfQuotient(x: real, s: real)
    requires s > 0.0
    ensures x >= 0.0 <==> x / s >= 0.0
  {
    DivMul(x, s);
  }

  lemma {:induction false} UpAdd(m: nat, n: nat)
    ensures Up(m + n) == Up(m) * Up(n)
  {
    if m > 0 {
      UpAdd(m - 1, n);
      TenTimes(Up(m + n), Up(m - 1 + n), Up(m), Up(m - 1), Up(n));
    }
  }

  lemma {:induction false} DownAdd(m: nat, n: nat)
    ensures Down(m + n) == Down(m) * Down(n)
  {
    if m > 0 {
      DownAdd(m - 1, n);
      TenthOf(Down(m + n), Down(m - 1 + n), Down(m), Down(m - 1), Down(n));
    }
  }

  /** `10^m * 10^-n` is `10^(m-n)` when `m >= n`. */
  lemma {:induction false} UpDownAtLeast(m: nat, n: nat)
    requires m >= n
    ensures Up(m) * Down(n) == Up(m - n)
  {
    if n > 0 {
      UpDownAtLeast(m - 1, n - 1);
      Cancel10(Up(m), Up(m - 1), Down(n), Down(n - 1));
    } else {
      assert Down(n) == 1.0;
    }
  }

  /** `10^m * 10^-n` is `10^-(n-m)` when `m < n`. */
  lemma {:induction false} UpDownBelow(m: nat, n: nat)
    requires m < n
    ensures Up(m) * Down(n) == Down(n - m)
  {
    if m > 0 {
      UpDownBelow(m - 1, n - 1);
      Cancel10(Up(m), Up(m - 1), Down(n), Down(n - 1));
    } else {
      assert Up(m) == 1.0;
    }
  }

  lemma TenTimes(big: real, small: real, u: real, v: real, w: real)
    requires big == 10.0 * small && u == 10.0 * v && small == v * w
    ensures big == u * w
  {
  }

  lemma TenthOf(big: real, small: real, u: real, v: real, w: real)
    requires big == small / 10.0 && u == v / 10.0 && small == v * w
    ensures big == u * w
  {
  }

  lemma Cancel10(u: real, v: real, d: real, f: real)
    requires u == 10.0 * v && d == f / 10.0
    ensures u * d == v * f
  {
  }

  lemma ScaleAdd(a: int, b: int)
    ensures Scale(a + b) == Scale(a) * Scale(b)
  {
    if a >= 0 && b >= 0 {
      UpAdd(a, b);
    } else if a < 0 && b < 0 {
      DownAdd(-a, -b);
    } else if a >= 0 {
      ScaleMixed(a, b);
    } else {
      ScaleMixed(b, a);
      assert b + a == a + b;
    }
  }

  lemma ScaleMixed(a: int, b: int)
    requires a >= 0 && b < 0
    ensures Scale(a + b) == Scale(a) * Scale(b)
  {
    var u, d := Up(a), Down(-b);
    assert Scale(a) * Scale(b) == u * d;
    if a + b >= 0 {
      UpDownAtLeast(a, -b);
      assert Scale(a + b) == Up(a - (-b));
    } else {
      UpDownBelow(a, -b);
      assert Scale(a + b) == Down(-b - a);
    }
  }

  lemma RealOfProduct(x: int, y: int)
    ensures (x * y) as real == x as real * y as real
  {
  }

  /** `(p·u)(q·v) == (p·q)(u·v)`, with every product named. */
  lemma ProductOfScaled(p: real, q: real, u: real, v: real, z: real, w: real, va: real, vb: real, vr: real)
    requires z == p * q && w == u * v
    requires va == p * u && vb == q * v && vr == z * w
    ensures vr == va * vb
  {
  }

  /** Exact `Decimal` multiplication. */
  function Mul(a: Dec, b: Dec): (r: Dec)
    ensures Value(r) == Value(a) * Value(b)
  {
    MulValue(a, b);
    Dec(a.coef * b.coef, a.exp + b.exp)
  }

  lemma MulValue(a: Dec, b: Dec)
    ensures Value(Dec(a.coef * b.coef, a.exp + b.exp)) == Value(a) * Value(b)
  {
    var r := Dec(a.coef * b.coef, a.exp + b.exp);
    RealOfProduct(a.coef, b.coef);
    ScaleAdd(a.exp, b.exp);
    ProductOfScaled(a.coef as real, b.coef as real, Scale(a.exp), Scale(b.exp),
                    r.coef as real, Scale(r.exp), Value(a), Value(b), Value(r));
  }

  /** `Decimal(0)`, the default balance of an absent account. */
  const Zero: Dec := Dec(0, 0)
}

=== FILE: fear_and_greed.dfy ===
/** `coinbase_advanced_trader/services/fear_and_greed_strategy.py`: a
    schedule of thresholds on the Fear and Greed Index decides whether to
    buy or sell, and how much.

    The index value is an input (the index client is not part of this
    model), and so are the schedule, the two price multipliers the order
    service defaults to, and the order service's own inputs.
 */
module FearAndGreed {
  import opened Wrappers
  import opened Decimals
  import opened PriceService
  import opened OrderService

  /** One schedule entry: `{'threshold': t, 'factor': f, 'action': a}`. */
  datatype Condition = Condition(threshold: int, factor: Dec, action: string)

  const BuyAction: string := "buy"
  const SellAction: string := "sell"

  /** `_should_execute_trade`: a buy condition fires at or below its
      threshold, a sell condition at or above it, and any other action
      never fires. */
  predicate ShouldExecuteTrade(condition: Condition, fgi: int) {
    || (condition.action == BuyAction && fgi <= condition.threshold)
    || (condition.action == SellAction && fgi >= condition.threshold)
  }

  /** `i` is the first entry of `schedule` that fires. */
  predicate IsFirstMatch(schedule: seq<Condition>, fgi: int, i: int) {
    && 0 <= i < |schedule|
    && ShouldExecuteTrade(schedule[i], fgi)
    && forall j :: 0 <= j < i ==> !ShouldExecuteTrade(schedule[j], fgi)
  }

  /** The scan of the `for` loop: the index of the first entry that fires. */
  function FirstMatch(schedule: seq<Condition>, fgi: int): (r: Option<nat>)
    ensures r.Some? ==> IsFirstMatch(schedule, fgi, r.value)
    ensures r.None? <==> forall j :: 0 <= j < |schedule| ==> !ShouldExecuteTrade(schedule[j], fgi)
    decreases |schedule|
  {
    if |schedule| == 0 then None
    else if ShouldExecuteTrade(schedule[0], fgi) then Some(0)
    else match FirstMatch(schedule[1..], fgi)
      case None => None
      case Some(i) => Some(i + 1)
  }

  /** There is only one first match. */
  lemma FirstMatchUnique(schedule: seq<Condition>, fgi: int, i: int, k: int)
    requires IsFirstMatch(schedule, fgi, i) && IsFirstMatch(schedule, fgi, k)
    ensures i == k
  {
  }

  /** `_execute_trade`: "buy" goes to `fiat_limit_buy` and "sell" to
      `fiat_limit_sell`, each with no explicit limit price and the service's
      default multiplier; any other action places nothing and answers None. */
  function ExecuteAction(productId: string, amount: Dec, action: string,
                         buyMultiplier: Dec, sellMultiplier: Dec,
                         spot: Option<Dec>, details: Option<ProductDetails>, client: Client, recheck: Recheck): (r: Option<Placement>)
    ensures r.Some? <==> action == BuyAction || action == SellAction
    ensures r.Some? && r.value.call.Some? ==>
      (r.value.call.value.LimitOrderGtcBuy? <==> action == BuyAction)
      && (r.value.call.value.LimitOrderGtcSell? <==> action == SellAction)
    ensures action == BuyAction ==>
      r == Some(PlaceLimitOrder(productId, amount, None, buyMultiplier, Orders.Buy, spot, details, client, recheck))
    ensures action == SellAction ==>
      r == Some(PlaceLimitOrder(productId, amount, None, sellMultiplier, Orders.Sell, spot, details, client, recheck))
  {
    if action == BuyAction then
      Some(FiatLimitBuy(productId, amount, None, buyMultiplier, spot, details, client, recheck))
    else if action == SellAction then
      Some(FiatLimitSell(productId, amount, None, sellMultiplier, spot, details, client, recheck))
    else
      None
  }

  /** The amount traded for a condition: the fiat amount scaled by its factor. */
  function AdjustedAmount(fiatAmount: Dec, condition: Condition): (a: Dec)
    ensures Value(a) == Value(fiatAmount) * Value(condition.factor)
  {
    Mul(fiatAmount, condition.factor)
  }

  /** `execute_trade`: act on the first condition that fires, with the
      scaled amount; answer None when none fires. */
  function ExecuteTrade(productId: string, fiatAmount: Dec, schedule: seq<Condition>, fgi: int,
                        buyMultiplier: Dec, sellMultiplier: Dec,
                        spot: Option<Dec>, details: Option<ProductDetails>, client: Client, recheck: Recheck): (r: Option<Placement>)
    ensures r.Some? <==> exists i :: 0 <= i < |schedule| && ShouldExecuteTrade(schedule[i], fgi)
    ensures forall i :: IsFirstMatch(schedule, fgi, i) ==>
      r == ExecuteAction(productId, AdjustedAmount(fiatAmount, schedule[i]), schedule[i].action,
                         buyMultiplier, sellMultiplier, spot, details, client, recheck)
  {
    match FirstMatch(schedule, fgi)
    case None => None
    case Some(i) =>
      var condition := schedule[i];
      ExecuteAction(productId, AdjustedAmount(fiatAmount, condition), condition.action,
                    buyMultiplier, sellMultiplier, spot, details, client, recheck)
  }

  /** Conditions after the first one that fires are never looked at. */
  lemma LaterConditionsIgnored(schedule: seq<Condition>, later: seq<Condition>, fgi: int)
    requires FirstMatch(schedule, fgi).Some?
    ensures FirstMatch(schedule + later, fgi) == FirstMatch(schedule, fgi)
  {
    var i := FirstMatch(schedule, fgi).value;
    assert IsFirstMatch(schedule + later, fgi, i) by {
      forall j | 0 <= j <= i
        ensures (schedule + later)[j] == schedule[j]
      {
      }
    }
    FirstMatchUnique(schedule + later, fgi, i, FirstMatch(schedule + later, fgi).value);
  }

  /** A condition that does not fire is skipped. */
  lemma SkipsNonMatching(c: Condition, rest: seq<Condition>, fgi: int)
    requires !ShouldExecuteTrade(c, fgi)
    ensures FirstMatch([c] + rest, fgi) == (match FirstMatch(rest, fgi) case None => None case Some(i) => Some(i + 1))
  {
    assert ([c] + rest)[1..] == rest;
  }

  /** The schedule of the strategy's examples: buy at 30 or below with 1.2,
      sell at 70 or above with 0.8. */
  const ExampleSchedule: seq<Condition> := [Condition(30, Dec(12, -1), BuyAction), Condition(70, Dec(8, -1), SellAction)]

  /** At an index of 25 the buy condition fires and 10 becomes 12. */
  lemma ExampleBuy()
    ensures FirstMatch(ExampleSchedule, 25) == Some(0)
    ensures Value(AdjustedAmount(Dec(10, 0), ExampleSchedule[0])) == 12.0
  {
    assert Scale(-1) == 0.1;
  }

  /** At an index of 75 the sell condition fires and 10 becomes 8. */
  lemma ExampleSell()
    ensures FirstMatch(ExampleSchedule, 75) == Some(1)
    ensures Value(AdjustedAmount(Dec(10, 0), ExampleSchedule[1])) == 8.0
  {
    assert Scale(-1) == 0.1;
  }

  /** At an index of 50 nothing fires and no order is placed. */
  lemma ExampleNeutral(productId: string, fiatAmount: Dec, buyMultiplier: Dec, sellMultiplier: Dec,
                       spot: Option<Dec>, details: Option<ProductDetails>, client: Client,
                       recheck: Recheck)
    ensures ExecuteTrade(productId, fiatAmount, ExampleSchedule, 50, buyMultiplier, sellMultiplier, spot, details, client, recheck).None?
  {
    assert !ShouldExecuteTrade(ExampleSchedule[0], 50) && !ShouldExecuteTrade(ExampleSchedule[1], 50);
  }
}

=== FILE: helpers.dfy ===
/** `coinbase_advanced_trader/utils/helpers.py`: order sizing.

    `generate_client_order_id` draws a random UUID and is not part of this
    model.
 */
module Helpers {
  import opened Wrappers
  import opened Decimals

  /** The text of the signal Decimal raises for a non-zero dividend and a
      zero divisor. */
  const DivisionByZeroSignal: string := "[<class 'decimal.DivisionByZero'>]"

  /** The text of the signal Decimal raises for zero divided by zero. */
  const DivisionUndefinedSignal: string := "[<class 'decimal.DivisionUndefined'>]"

  /** The exception `dividend / Decimal(0)` raises under the default
      context: DivisionByZero, unless the dividend is zero as well, which is
      the InvalidOperation of an undefined quotient. */
  function ZeroDivisorError(dividend: Dec): (e: Error)
    ensures Value(dividend) == 0.0 ==> e == InvalidOperation(DivisionUndefinedSignal)
    ensures Value(dividend) != 0.0 ==> e == DivisionByZero(DivisionByZeroSignal)
  {
    if Value(dividend) == 0.0 then InvalidOperation(DivisionUndefinedSignal)
    else DivisionByZero(DivisionByZeroSignal)
  }

  /** `calculate_base_size`: how much of the base asset `fiatAmount` buys at
      `spotPrice`, quantised to the exponent of `baseIncrement` with
      ROUND_HALF_UP. Nothing guards the division: a zero price raises. */
  function CalculateBaseSize(fiatAmount: Dec, spotPrice: Dec, baseIncrement: Dec): (r: Result<Dec, Error>)
    ensures r.Failure? <==> Value(spotPrice) == 0.0
    ensures r.Failure? ==> r.error == ZeroDivisorError(fiatAmount)
    ensures r.Success? ==> r.value.exp == baseIncrement.exp
    ensures r.Success? ==> Exact(fiatAmount, spotPrice) - Scale(r.value.exp) / 2.0 <= Value(r.value)
    ensures r.Success? ==> Value(r.value) <= Exact(fiatAmount, spotPrice) + Scale(r.value.exp) / 2.0
    // a tie is settled away from zero
    ensures r.Success? && Exact(fiatAmount, spotPrice) >= 0.0 ==>
      Exact(fiatAmount, spotPrice) - Scale(r.value.exp) / 2.0 < Value(r.value)
    ensures r.Success? && Exact(fiatAmount, spotPrice) < 0.0 ==>
      Value(r.value) < Exact(fiatAmount, spotPrice) + Scale(r.value.exp) / 2.0
    // a quotient already on the grid is returned unchanged
    ensures r.Success? && IsIntegral(Exact(fiatAmount, spotPrice) / Scale(r.value.exp)) ==>
      Value(r.value) == Exact(fiatAmount, spotPrice)
  {
    if Value(spotPrice) == 0.0 then Failure(ZeroDivisorError(fiatAmount))
    else Success(Quantize(Exact(fiatAmount, spotPrice), baseIncrement.exp, HalfUp))
  }

  /** The unrounded quotient `fiat_amount / spot_price`. */
  function Exact(fiatAmount: Dec, spotPrice: Dec): real
    requires Value(spotPrice) != 0.0
  {
    Value(fiatAmount) / Value(spotPrice)
  }

  /** With a power-of-ten increment such as `Decimal('0.00000001')` the size
      is a whole number of increments. */
  lemma BaseSizeIsMultipleOfIncrement(fiatAmount: Dec, spotPrice: Dec, baseIncrement: Dec)
    requires Value(spotPrice) != 0.0
    requires baseIncrement.coef == 1
    ensures var size := CalculateBaseSize(fiatAmount, spotPrice, baseIncrement).value;
      Value(size) == size.coef as real * Value(baseIncrement)
  {
  }

  /** 10 units of fiat at a price of 50000 with an increment of 1e-8 give 0.00020000. */
  lemma BaseSizeExample()
    ensures CalculateBaseSize(Dec(10, 0), Dec(50000, 0), Dec(1, -8)) == Success(Dec(20000, -8))
  {
  }

  /** A zero price raises, and which exception depends on the amount. */
  lemma ZeroPriceExample(baseIncrement: Dec)
    ensures CalculateBaseSize(Dec(10, 0), Dec(0, -2), baseIncrement) == Failure(DivisionByZero(DivisionByZeroSignal))
    ensures CalculateBaseSize(Dec(0, 0), Dec(0, -2), baseIncrement) == Failure(InvalidOperation(DivisionUndefinedSignal))
  {
  }
}

=== FILE: order.dfy ===
/** `coinbase_advanced_trader/models/order.py`: the `Order` record and its
    one validation rule. */
module Orders {
  import opened Wrappers
  import opened Decimals

  datatype OrderSide = Buy | Sell

  datatype OrderType = Market | Limit

  /** An order as the services hand it back. `orderType` is the source's
      `type` field, a reserved word here. */
  datatype Order = Order(
    id: string,
    productId: string,
    side: OrderSide,
    orderType: OrderType,
    size: Dec,
    price: Option<Dec>,
    clientOrderId: Option<string>,
    status: string)
  {
    /** What `__post_init__` checks: a limit order carries a price. */
    predicate Valid() {
      orderType == Limit ==> price.Some?
    }

    function IsBuy(): (b: bool)
      ensures b <==> !IsSell()
    {
      side == Buy
    }

    function IsSell(): (b: bool)
      ensures b <==> side != Buy
    {
      side == Sell
    }

    function IsMarket(): (b: bool)
      ensures b <==> !IsLimit()
    {
      orderType == Market
    }

    function IsLimit(): (b: bool)
      ensures b <==> orderType != Market
    {
      orderType == Limit
    }
  }

  const DefaultStatus: string := "pending"

  const MissingPriceMessage: string := "Limit orders must have a price"

  /** The dataclass constructor followed by `__post_init__`: `price` and
      `clientOrderId` default to `None` and `status` to "pending"; a limit
      order without a price raises ValueError instead of being built. */
  function NewOrder(
    id: string,
    productId: string,
    side: OrderSide,
    orderType: OrderType,
    size: Dec,
    price: Option<Dec> := None,
    clientOrderId: Option<string> := None,
    status: string := DefaultStatus): (r: Result<Order, Error>)
    ensures r.Failure? <==> orderType == Limit && price.None?
    ensures r.Failure? ==> r.error == ValueError(MissingPriceMessage)
    ensures r.Success? ==> r.value.Valid()
    ensures r.Success? ==>
      && r.value.id == id
      && r.value.productId == productId
      && r.value.side == side
      && r.value.orderType == orderType
      && r.value.size == size
      && r.value.price == price
      && r.value.clientOrderId == clientOrderId
      && r.value.status == status
  {
    if orderType == Limit && price.None? then
      Failure(ValueError(MissingPriceMessage))
    else
      Success(Order(id, productId, side, orderType, size, price, clientOrderId, status))
  }

  /** Every order the constructor lets through is valid, and every valid
      order is one the constructor would build from its own fields. */
  lemma ConstructorAcceptsExactlyValid(o: Order)
    ensures o.Valid() <==>
      NewOrder(o.id, o.productId, o.side, o.orderType, o.size, o.price, o.clientOrderId, o.status) == Success(o)
  {
  }

  /** A market order may leave the price out; it then has the defaults. */
  lemma MarketOrderDefaults(id: string, productId: string, side: OrderSide, size: Dec)
    ensures NewOrder(id, productId, side, Market, size).Success?
    ensures NewOrder(id, productId, side, Market, size).value.price.None?
    ensures NewOrder(id, productId, side, Market, size).value.clientOrderId.None?
    ensures NewOrder(id, productId, side, Market, size).value.status == "pending"
  {
  }
}

=== FILE: order_service.dfy ===
/** `coinbase_advanced_trader/services/order_service.py`: turning a fiat
    amount into an exchange order.

    The REST client is a parameter: a function from the request the service
    sends to the reply the exchange gives. The spot price and the product
    details come in already looked up (see `PriceService`), because the
    service asks for each of them exactly once before it sends anything. The
    client order id is a fresh UUID that nothing reads back, so requests do
    not carry it. An exception is a `Failure`; `call` records the one request
    that reached the exchange, if any.
 */
module OrderService {
  import opened Wrappers
  import opened Decimals
  import opened Helpers
  import opened Orders
  import opened PriceService

  /** The four order-placing requests of the REST client. */
  datatype Call =
    | MarketOrderBuy(productId: string, quoteSize: Dec)
    | MarketOrderSell(productId: string, baseSize: Dec)
    | LimitOrderGtcBuy(productId: string, baseSize: Dec, limitPrice: Dec)
    | LimitOrderGtcSell(productId: string, baseSize: Dec, limitPrice: Dec)

  /** `success_response` of a reply: missing (a rejected limit order's
      reply carries only `error_response`), present without `order_id`, or
      carrying the order id. */
  datatype SuccessResponse = NoSuccessResponse | NoOrderId | WithOrderId(orderId: string)

  /** The exchange's reply: the client raised, or a response with the
      `success` flag, `success_response` and the two optional fields of
      `error_response`. */
  datatype Reply =
    | ClientRaised(message: string)
    | Response(success: bool, successResponse: SuccessResponse,
               errorMessage: Option<string>, previewFailureReason: Option<string>)

  type Client = Call -> Reply

  /** The price service's answers to the lookups `_log_order_result` makes
      once the order has been placed: the product details again, and the
      spot price again, which only a market order reads. They need not agree
      with the lookups made before the order was sent. */
  datatype Recheck = Recheck(details: Option<ProductDetails>, spot: Option<Dec>)

  /** The outcome of one service call: the request sent, and the order built
      or the exception raised. */
  datatype Placement = Placement(call: Option<Call>, result: Result<Order, Error>)

  const SuccessResponseKey: string := "success_response"
  const OrderIdKey: string := "order_id"

  /** `order_response['success_response']['order_id']`, or the KeyError of
      the first key that is missing. */
  function ReadOrderId(s: SuccessResponse): (r: Result<string, Error>)
    ensures r.Success? <==> s.WithOrderId?
    ensures r.Success? ==> r.value == s.orderId
    ensures s.NoSuccessResponse? ==> r == Failure(KeyError(SuccessResponseKey))
    ensures s.NoOrderId? ==> r == Failure(KeyError(OrderIdKey))
  {
    match s
    case NoSuccessResponse => Failure(KeyError(SuccessResponseKey))
    case NoOrderId => Failure(KeyError(OrderIdKey))
    case WithOrderId(id) => Success(id)
  }

  /** The exception message for a market order the exchange rejected. */
  function RejectionMessage(verb: string, errorMessage: Option<string>, previewFailureReason: Option<string>): (m: string)
    ensures StartsWith(m, "Failed to place a market " + verb + " order. Reason: ")
    // then the exchange's message, and last the preview failure reason
    ensures var prefix, reason := "Failed to place a market " + verb + " order. Reason: ", errorMessage.GetOr("Unknown error");
      |prefix| + |reason| <= |m| && m[|prefix|..|prefix| + |reason|] == reason
    ensures var tail := ". Preview failure reason: " + previewFailureReason.GetOr("Unknown");
      |tail| <= |m| && m[|m| - |tail|..] == tail
  {
    var prefix := "Failed to place a market " + verb + " order. Reason: ";
    var reason := errorMessage.GetOr("Unknown error");
    var tail := ". Preview failure reason: " + previewFailureReason.GetOr("Unknown");
    var m := prefix + reason + tail;
    assert m[..|prefix|] == prefix;
    assert m[|prefix|..|prefix| + |reason|] == reason;
    assert m[|m| - |tail|..] == tail;
    m
  }

  /** What a market order's reply becomes before it is logged: a rejection
      raises with the exchange's reasons, an accepted reply missing
      `success_response` or its `order_id` raises KeyError for that key, and
      otherwise the order is built from `side` and `size`. */
  function MarketResult(reply: Reply, productId: string, side: OrderSide, size: Dec): (r: Result<Order, Error>)
    ensures r.Success? <==> reply.Response? && reply.success && reply.successResponse.WithOrderId?
    ensures r.Success? ==>
      r.value == Order(reply.successResponse.orderId, productId, side, Market, size, None, None, DefaultStatus)
    ensures reply.ClientRaised? ==> r == Failure(ClientError(reply.message))
    ensures reply.Response? && !reply.success ==>
      r == Failure(PlacementError(RejectionMessage(if side == Buy then "buy" else "sell",
                                                   reply.errorMessage, reply.previewFailureReason)))
    ensures reply.Response? && reply.success && reply.successResponse.NoSuccessResponse? ==>
      r == Failure(KeyError(SuccessResponseKey))
    ensures reply.Response? && reply.success && reply.successResponse.NoOrderId? ==>
      r == Failure(KeyError(OrderIdKey))
  {
    match reply
    case ClientRaised(m) => Failure(ClientError(m))
    case Response(success, successResponse, errorMessage, previewFailureReason) =>
      if !success then
        Failure(PlacementError(RejectionMessage(if side == Buy then "buy" else "sell",
                                                errorMessage, previewFailureReason)))
      else match ReadOrderId(successResponse)
        case Failure(e) => Failure(e)
        case Success(id) => NewOrder(id, productId, side, Market, size)
  }

  const NotEnoughToUnpack: string := "not enough values to unpack (expected 2, got 1)"
  const TooManyToUnpack: string := "too many values to unpack (expected 2)"
  const DecimalFromNone: string := "conversion from NoneType to Decimal is not supported"

  /** The number of '-' in a product id; `split('-')` gives one part more. */
  function Dashes(productId: string): nat {
    multiset(productId)['-']
  }

  /** The truth value of the `price` argument in Python: given and non-zero. */
  predicate PriceGiven(price: Option<Dec>) {
    price.Some? && Value(price.value) != 0.0
  }

  /** `_log_order_result`, reduced to the exception it raises, if any; the
      messages it logs are not modelled. `price` is the limit price (`None`
      for a market order) and `amount` the fiat amount of a buy or the base
      size of a sell. It unpacks the product id into base and quote
      currency, looks the product details up again, and for a successful
      order without a price looks the spot price up again and converts it to
      Decimal, dividing the amount by it for a buy. */
  function LogOrderResult(success: bool, productId: string, amount: Dec, price: Option<Dec>, side: OrderSide,
                          recheck: Recheck): (e: Option<Error>)
    ensures Dashes(productId) == 0 ==> e == Some(ValueError(NotEnoughToUnpack))
    ensures Dashes(productId) > 1 ==> e == Some(ValueError(TooManyToUnpack))
    ensures Dashes(productId) == 1 && recheck.details.None? ==> e == Some(ValueError(NoDetailsMessage(productId)))
    ensures e.None? <==>
      && Dashes(productId) == 1 && recheck.details.Some?
      && (!success || PriceGiven(price) || (recheck.spot.Some? && (side == Sell || Value(recheck.spot.value) != 0.0)))
    ensures Dashes(productId) == 1 && recheck.details.Some? && success && !PriceGiven(price) && recheck.spot.None? ==>
      e == Some(TypeError(DecimalFromNone))
    ensures Dashes(productId) == 1 && recheck.details.Some? && success && !PriceGiven(price) && side == Buy
            && recheck.spot.Some? && Value(recheck.spot.value) == 0.0 ==>
      e == Some(ZeroDivisorError(amount))
  {
    if Dashes(productId) == 0 then Some(ValueError(NotEnoughToUnpack))
    else if Dashes(productId) > 1 then Some(ValueError(TooManyToUnpack))
    else if recheck.details.None? then Some(ValueError(NoDetailsMessage(productId)))
    else if !success || PriceGiven(price) then None
    else if recheck.spot.None? then Some(TypeError(DecimalFromNone))
    else if side == Buy && Value(recheck.spot.value) == 0.0 then Some(ZeroDivisorError(amount))
    else
      assert side == Sell || Value(recheck.spot.value) != 0.0;
      None
  }

  /** A built order is returned only once `_log_order_result` has returned. */
  function Logged(built: Result<Order, Error>, raised: Option<Error>): (r: Result<Order, Error>)
    ensures r.Success? <==> built.Success? && raised.None?
    ensures r.Success? || built.Failure? ==> r == built
    ensures built.Success? && raised.Some? ==> r == Failure(raised.value)
  {
    if built.Failure? then built
    else if raised.Some? then Failure(raised.value)
    else built
  }

  /** `fiat_market_buy`: spend `fiatAmount` of the quote currency at market.
      The request is sent before anything can raise, so a failure may come
      after the exchange has accepted the order. */
  function FiatMarketBuy(productId: string, fiatAmount: Dec, client: Client, recheck: Recheck): (p: Placement)
    ensures p.call == Some(MarketOrderBuy(productId, fiatAmount))
    ensures var built := MarketResult(client(MarketOrderBuy(productId, fiatAmount)), productId, Buy, fiatAmount);
      && (built.Failure? ==> p.result == built)
      && (built.Success? ==> (p.result.Success? <==> LogOrderResult(true, productId, fiatAmount, None, Buy, recheck).None?))
      && (built.Success? && p.result.Failure? ==>
            p.result == Failure(LogOrderResult(true, productId, fiatAmount, None, Buy, recheck).value))
      && (p.result.Success? ==> p.result == built)
    ensures p.result.Success? ==> p.result.value.IsBuy() && p.result.value.IsMarket() && p.result.value.size == fiatAmount
    // an order is returned only if the second lookups found the details and a non-zero price
    ensures p.result.Success? ==>
      Dashes(productId) == 1 && recheck.details.Some? && recheck.spot.Some? && Value(recheck.spot.value) != 0.0
  {
    var call := MarketOrderBuy(productId, fiatAmount);
    var built := MarketResult(client(call), productId, Buy, fiatAmount);
    Placement(Some(call), Logged(built, LogOrderResult(true, productId, fiatAmount, None, Buy, recheck)))
  }

  const NotSubscriptable: string := "'NoneType' object is not subscriptable"
  const UnsupportedDivision: string := "unsupported operand type(s) for /: 'decimal.Decimal' and 'NoneType'"

  /** `fiat_market_sell`: sell as much of the base asset as `fiatAmount` buys
      at the spot price. Nothing checks the lookups: missing details fail on
      the subscript, a missing price fails in the division, and a zero price
      makes `calculate_base_size` raise, all before any request is sent. */
  function FiatMarketSell(productId: string, fiatAmount: Dec, spot: Option<Dec>, details: Option<ProductDetails>,
                          client: Client, recheck: Recheck): (p: Placement)
    ensures p.call.Some? <==> details.Some? && spot.Some? && Value(spot.value) != 0.0
    ensures details.None? ==> p.result == Failure(TypeError(NotSubscriptable))
    ensures details.Some? && spot.None? ==> p.result == Failure(TypeError(UnsupportedDivision))
    ensures details.Some? && spot.Some? && Value(spot.value) == 0.0 ==> p.result == Failure(ZeroDivisorError(fiatAmount))
    ensures p.call.Some? ==>
      p.call.value.MarketOrderSell? && p.call.value.productId == productId
      && Success(p.call.value.baseSize) == CalculateBaseSize(fiatAmount, spot.value, details.value.baseIncrement)
    ensures p.call.Some? ==>
      var built := MarketResult(client(p.call.value), productId, Sell, p.call.value.baseSize);
      var raised := LogOrderResult(true, productId, p.call.value.baseSize, None, Sell, recheck);
      && (built.Failure? ==> p.result == built)
      && (built.Success? ==> (p.result.Success? <==> raised.None?))
      && (built.Success? && p.result.Failure? ==> p.result == Failure(raised.value))
      && (p.result.Success? ==> p.result == built)
    // the second spot lookup is converted but not divided by
    ensures p.result.Success? ==> Dashes(productId) == 1 && recheck.details.Some? && recheck.spot.Some?
  {
    if details.None? then
      Placement(None, Failure(TypeError(NotSubscriptable)))
    else if spot.None? then
      Placement(None, Failure(TypeError(UnsupportedDivision)))
    else match CalculateBaseSize(fiatAmount, spot.value, details.value.baseIncrement)
      case Failure(e) => Placement(None, Failure(e))
      case Success(baseSize) =>
        var call := MarketOrderSell(productId, baseSize);
        var built := MarketResult(client(call), productId, Sell, baseSize);
        Placement(Some(call), Logged(built, LogOrderResult(true, productId, baseSize, None, Sell, recheck)))
  }

  /** The unrounded limit price: the caller's price when one is given,
      otherwise the spot price times the multiplier. */
  function PriceBasis(limitPrice: Option<Dec>, spot: Dec, priceMultiplier: Dec): (x: real)
    ensures limitPrice.Some? ==> x == Value(limitPrice.value)
    ensures limitPrice.None? ==> x == Value(spot) * Value(priceMultiplier)
  {
    if limitPrice.Some? then Value(limitPrice.value) else Value(Mul(spot, priceMultiplier))
  }

  /** The limit price sent: the basis quantised to the quote increment's
      exponent under the default context, so a tie goes to an even
      coefficient. */
  function AdjustedPrice(limitPrice: Option<Dec>, spot: Dec, priceMultiplier: Dec, quoteIncrement: Dec): (d: Dec)
    ensures d.exp == quoteIncrement.exp
    ensures PriceBasis(limitPrice, spot, priceMultiplier) - Scale(d.exp) / 2.0 <= Value(d)
    ensures Value(d) <= PriceBasis(limitPrice, spot, priceMultiplier) + Scale(d.exp) / 2.0
    ensures IsIntegral(PriceBasis(limitPrice, spot, priceMultiplier) / Scale(d.exp)) ==>
      Value(d) == PriceBasis(limitPrice, spot, priceMultiplier)
    ensures || Value(d) == PriceBasis(limitPrice, spot, priceMultiplier) - Scale(d.exp) / 2.0
            || Value(d) == PriceBasis(limitPrice, spot, priceMultiplier) + Scale(d.exp) / 2.0
            ==> d.coef % 2 == 0
  {
    Quantize(PriceBasis(limitPrice, spot, priceMultiplier), quoteIncrement.exp, HalfEven)
  }

  function NoPriceMessage(productId: string): string {
    "Could not get current price for " + productId
  }

  function NoDetailsMessage(productId: string): string {
    "Could not get product details for " + productId
  }

  /** `_place_limit_order`. A missing price or missing details raise
      ValueError before anything is sent, and so does the division of
      `calculate_base_size` for a zero adjusted price. The request goes to the
      GTC buy or sell endpoint by `side`. The reply's `success` flag is never
      read before the order is built: any reply that carries an order id
      becomes a limit order, which `_log_order_result` may still turn into an
      exception. A limit order never reads the second spot lookup. */
  function PlaceLimitOrder(productId: string, fiatAmount: Dec, limitPrice: Option<Dec>, priceMultiplier: Dec,
                           side: OrderSide, spot: Option<Dec>, details: Option<ProductDetails>,
                           client: Client, recheck: Recheck): (p: Placement)
    ensures spot.None? ==> p == Placement(None, Failure(ValueError(NoPriceMessage(productId))))
    ensures spot.Some? && details.None? ==> p == Placement(None, Failure(ValueError(NoDetailsMessage(productId))))
    ensures spot.Some? && details.Some?
            && Value(AdjustedPrice(limitPrice, spot.value, priceMultiplier, details.value.quoteIncrement)) == 0.0 ==>
      p == Placement(None, Failure(ZeroDivisorError(fiatAmount)))
    ensures p.call.Some? <==>
      spot.Some? && details.Some?
      && Value(AdjustedPrice(limitPrice, spot.value, priceMultiplier, details.value.quoteIncrement)) != 0.0
    ensures p.call.Some? ==> p.call.value.productId == productId
    ensures p.call.Some? ==> (p.call.value.LimitOrderGtcBuy? <==> side == Buy)
    ensures p.call.Some? ==> p.call.value.LimitOrderGtcBuy? || p.call.value.LimitOrderGtcSell?
    ensures p.call.Some? ==>
      p.call.value.limitPrice == AdjustedPrice(limitPrice, spot.value, priceMultiplier, details.value.quoteIncrement)
    ensures p.call.Some? ==>
      Success(p.call.value.baseSize) == CalculateBaseSize(fiatAmount, p.call.value.limitPrice, details.value.baseIncrement)
    // the reply: a raise is passed on, and a missing key raises KeyError whatever `success` says
    ensures p.call.Some? && client(p.call.value).ClientRaised? ==>
      p.result == Failure(ClientError(client(p.call.value).message))
    ensures p.call.Some? && client(p.call.value).Response? && client(p.call.value).successResponse.NoSuccessResponse? ==>
      p.result == Failure(KeyError(SuccessResponseKey))
    ensures p.call.Some? && client(p.call.value).Response? && client(p.call.value).successResponse.NoOrderId? ==>
      p.result == Failure(KeyError(OrderIdKey))
    // after the order is built, only the product id and the second details lookup can make it raise
    ensures p.result.Success? <==>
      && p.call.Some? && client(p.call.value).Response? && client(p.call.value).successResponse.WithOrderId?
      && Dashes(productId) == 1 && recheck.details.Some?
    ensures p.call.Some? && client(p.call.value).Response? && client(p.call.value).successResponse.WithOrderId?
            && p.result.Failure? ==>
      p.result == Failure(LogOrderResult(client(p.call.value).success, productId,
                                         if side == Buy then fiatAmount else p.call.value.baseSize,
                                         Some(p.call.value.limitPrice), side, recheck).value)
    // the whole order: no client order id and the default status, as for a market order
    ensures p.result.Success? ==>
      p.result.value == Order(client(p.call.value).successResponse.orderId, productId, side, Limit,
                              p.call.value.baseSize, Some(p.call.value.limitPrice), None, DefaultStatus)
    ensures p.result.Success? ==>
      && p.result.value.Valid()
      && p.result.value.id == client(p.call.value).successResponse.orderId
      && p.result.value.productId == productId
      && p.result.value.side == side
      && p.result.value.IsLimit()
      && p.result.value.size == p.call.value.baseSize
      && p.result.value.price == Some(p.call.value.limitPrice)
  {
    if spot.None? then
      Placement(None, Failure(ValueError(NoPriceMessage(productId))))
    else if details.None? then
      Placement(None, Failure(ValueError(NoDetailsMessage(productId))))
    else
      var price := AdjustedPrice(limitPrice, spot.value, priceMultiplier, details.value.quoteIncrement);
      match CalculateBaseSize(fiatAmount, price, details.value.baseIncrement)
      case Failure(e) => Placement(None, Failure(e))
      case Success(baseSize) =>
        var call := if side == Buy then LimitOrderGtcBuy(productId, baseSize, price)
                    else LimitOrderGtcSell(productId, baseSize, price);
        var result := match client(call)
          case ClientRaised(m) => Failure(ClientError(m))
          case Response(success, successResponse, _, _) =>
            match ReadOrderId(successResponse)
            case Failure(e) => Failure(e)
            case Success(id) =>
              var amount := if side == Buy then fiatAmount else baseSize;
              Logged(NewOrder(id, productId, side, Limit, baseSize, Some(price)),
                     LogOrderResult(success, productId, amount, Some(price), side, recheck));
        Placement(Some(call), result)
  }

  /** `fiat_limit_buy`. */
  function FiatLimitBuy(productId: string, fiatAmount: Dec, limitPrice: Option<Dec>, priceMultiplier: Dec,
                        spot: Option<Dec>, details: Option<ProductDetails>, client: Client, recheck: Recheck): (p: Placement)
    ensures p.call.Some? ==> p.call.value.LimitOrderGtcBuy?
    ensures p.result.Success? ==> p.result.value.IsBuy() && p.result.value.IsLimit()
    ensures p == PlaceLimitOrder(productId, fiatAmount, limitPrice, priceMultiplier, Buy, spot, details, client, recheck)
  {
    PlaceLimitOrder(productId, fiatAmount, limitPrice, priceMultiplier, Buy, spot, details, client, recheck)
  }

  /** `fiat_limit_sell`. */
  function FiatLimitSell(productId: string, fiatAmount: Dec, limitPrice: Option<Dec>, priceMultiplier: Dec,
                         spot: Option<Dec>, details: Option<ProductDetails>, client: Client, recheck: Recheck): (p: Placement)
    ensures p.call.Some? ==> p.call.value.LimitOrderGtcSell?
    ensures p.result.Success? ==> p.result.value.IsSell() && p.result.value.IsLimit()
    ensures p == PlaceLimitOrder(productId, fiatAmount, limitPrice, priceMultiplier, Sell, spot, details, client, recheck)
  {
    PlaceLimitOrder(productId, fiatAmount, limitPrice, priceMultiplier, Sell, spot, details, client, recheck)
  }

  /** A reply that reports failure but still carries an order id: the market
      buy raises, while the limit buy returns an order. */
  lemma RejectedReplyOnlyStopsMarketOrders(productId: string, fiatAmount: Dec, priceMultiplier: Dec,
                                           spot: Dec, details: ProductDetails, id: string, recheck: Recheck)
    requires Value(AdjustedPrice(None, spot, priceMultiplier, details.quoteIncrement)) != 0.0
    requires Dashes(productId) == 1 && recheck.details.Some?
    ensures var client: Client := _ => Response(false, WithOrderId(id), None, None);
      && FiatMarketBuy(productId, fiatAmount, client, recheck).result.Failure?
      && FiatLimitBuy(productId, fiatAmount, None, priceMultiplier, Some(spot), Some(details), client, recheck).result.Success?
  {
  }

  /** A rejected limit order's reply carries only `error_response`, so the
      service raises KeyError for `success_response`, not an exception of
      its own. */
  lemma RejectedLimitReplyRaisesKeyError(productId: string, fiatAmount: Dec, priceMultiplier: Dec,
                                         spot: Dec, details: ProductDetails, message: Option<string>, recheck: Recheck)
    requires Value(AdjustedPrice(None, spot, priceMultiplier, details.quoteIncrement)) != 0.0
    ensures var client: Client := _ => Response(false, NoSuccessResponse, message, None);
      var p := FiatLimitBuy(productId, fiatAmount, None, priceMultiplier, Some(spot), Some(details), client, recheck);
      p.call.Some? && p.result == Failure(KeyError(SuccessResponseKey))
  {
  }

  /** A product id without '-' cannot be split into two currencies: the
      market buy is sent and accepted, and the caller still gets ValueError. */
  lemma PlacedOrderCanStillRaise(productId: string, fiatAmount: Dec, id: string, recheck: Recheck)
    requires '-' !in productId
    ensures var client: Client := _ => Response(true, WithOrderId(id), None, None);
      var p := FiatMarketBuy(productId, fiatAmount, client, recheck);
      p.call.Some? && p.result == Failure(ValueError(NotEnoughToUnpack))
  {
    assert Dashes(productId) == 0;
  }

  /** A second spot lookup that fails makes an accepted market buy raise
      TypeError, although the exchange has the order. */
  lemma FailedRecheckRaisesAfterMarketBuy(fiatAmount: Dec, id: string, details: ProductDetails)
    ensures var client: Client := _ => Response(true, WithOrderId(id), None, None);
      var p := FiatMarketBuy("BTC-USDC", fiatAmount, client, Recheck(Some(details), None));
      p.call.Some? && p.result == Failure(TypeError(DecimalFromNone))
  {
    assert Dashes("BTC-USDC") == 1;
  }

  /** A limit order's outcome does not depend on the second spot lookup. */
  lemma LimitOrderIgnoresSpotRecheck(productId: string, fiatAmount: Dec, limitPrice: Option<Dec>, priceMultiplier: Dec,
                                     side: OrderSide, spot: Option<Dec>, details: Option<ProductDetails>,
                                     client: Client, recheckDetails: Option<ProductDetails>, s1: Option<Dec>, s2: Option<Dec>)
    ensures PlaceLimitOrder(productId, fiatAmount, limitPrice, priceMultiplier, side, spot, details, client, Recheck(recheckDetails, s1))
         == PlaceLimitOrder(productId, fiatAmount, limitPrice, priceMultiplier, side, spot, details, client, Recheck(recheckDetails, s2))
  {
  }

  /** A rejection without an error response reads as one whose reasons are
      "Unknown error" and "Unknown". */
  lemma RejectionDefaults(verb: string)
    ensures RejectionMessage(verb, None, None) == RejectionMessage(verb, Some("Unknown error"), Some("Unknown"))
  {
  }

  /** A given limit price overrides the spot price and the multiplier. */
  lemma LimitPriceOverridesMultiplier(limit: Dec, spot1: Dec, spot2: Dec, m1: Dec, m2: Dec, quoteIncrement: Dec)
    ensures AdjustedPrice(Some(limit), spot1, m1, quoteIncrement) == AdjustedPrice(Some(limit), spot2, m2, quoteIncrement)
  {
  }

  /** With a spot price of 50000, a multiplier of 0.9995 and increments
      0.01 and 1e-8, 10 units of fiat buy at 49975.00 a size of 0.00020010. */
  lemma LimitBuyExample(id: string, recheck: Recheck)
    ensures var client: Client := _ => Response(true, WithOrderId(id), None, None);
      var p := FiatLimitBuy("BTC-USDC", Dec(10, 0), None, Dec(9995, -4), Some(Dec(50000, 0)),
                            Some(ProductDetails(Dec(1, -8), Dec(1, -2))), client, recheck);
      p.call == Some(LimitOrderGtcBuy("BTC-USDC", Dec(20010, -8), Dec(4997500, -2)))
  {
    ExampleLimitPrice(Dec(9995, -4), 49975.0, Dec(4997500, -2));
    ExampleLimitSize(Dec(4997500, -2), 49975.0, 20010);
  }

  /** With a multiplier of 1.005 the sell is priced at 50250.00 and sized 0.00019900. */
  lemma LimitSellExample(id: string, recheck: Recheck)
    ensures var client: Client := _ => Response(true, WithOrderId(id), None, None);
      var p := FiatLimitSell("BTC-USDC", Dec(10, 0), None, Dec(1005, -3), Some(Dec(50000, 0)),
                             Some(ProductDetails(Dec(1, -8), Dec(1, -2))), client, recheck);
      p.call == Some(LimitOrderGtcSell("BTC-USDC", Dec(19900, -8), Dec(5025000, -2)))
  {
    ExampleLimitPrice(Dec(1005, -3), 50250.0, Dec(5025000, -2));
    ExampleLimitSize(Dec(5025000, -2), 50250.0, 19900);
  }

  lemma ExampleLimitPrice(multiplier: Dec, product: real, price: Dec)
    requires Value(Mul(Dec(50000, 0), multiplier)) == product
    requires price.exp == -2 && price.coef as real == product * 100.0
    ensures AdjustedPrice(None, Dec(50000, 0), multiplier, Dec(1, -2)) == price
  {
    assert Scale(-2) == 0.01;
    RoundIntegral(product / 0.01, HalfEven);
  }

  lemma ExampleLimitSize(price: Dec, value: real, size: int)
    requires Value(price) == value && value > 0.0
    requires size as real - 0.5 <= 1000000000.0 / value < size as real + 0.5
    ensures CalculateBaseSize(Dec(10, 0), price, Dec(1, -8)) == Success(Dec(size, -8))
  {
    assert Scale(-8) == 0.00000001;
    var y := Exact(Dec(10, 0), price) / Scale(-8);
    assert y == 1000000000.0 / value;
    assert RoundHalfUp(y) == size;
  }
}

=== FILE: price_service.dfy ===
/** `coinbase_advanced_trader/services/price_service.py`: reading a price and
    the product's increments out of the exchange's `get_product` response.
    Both lookups swallow every error and answer `None`. */
module PriceService {
  import opened Wrappers
  import opened Decimals

  /** One field of a response: missing, present but not a decimal string
      (Decimal() raises on it), or a decimal. */
  datatype Field = Absent | Malformed | Present(value: Dec)

  /** What `rest_client.get_product(product_id)` produced. */
  datatype ProductResponse =
    | LookupRaised(message: string)
    | Product(price: Field, quoteIncrement: Field, baseIncrement: Field)

  /** The two increments `get_product_details` returns. */
  datatype ProductDetails = ProductDetails(baseIncrement: Dec, quoteIncrement: Dec)

  /** `get_spot_price`: the price quantised (half-even) to the exponent of the
      quote increment, or `None` when the lookup raised, a field is missing or
      a field is not a decimal. */
  function GetSpotPrice(response: ProductResponse): (r: Option<Dec>)
    ensures r.Some? <==> response.Product? && response.price.Present? && response.quoteIncrement.Present?
    ensures r.Some? ==> r.value.exp == response.quoteIncrement.value.exp
    ensures r.Some? ==>
      var p := Value(response.price.value);
      p - Scale(r.value.exp) / 2.0 <= Value(r.value) <= p + Scale(r.value.exp) / 2.0
    ensures r.Some? && IsIntegral(Value(response.price.value) / Scale(r.value.exp))
            ==> Value(r.value) == Value(response.price.value)
    // the default context rounds a tie to an even coefficient
    ensures r.Some? ==>
      var p := Value(response.price.value);
      Value(r.value) == p - Scale(r.value.exp) / 2.0 || Value(r.value) == p + Scale(r.value.exp) / 2.0
      ==> r.value.coef % 2 == 0
  {
    match response
    case LookupRaised(_) => None
    case Product(price, quoteIncrement, _) =>
      if price.Absent? || quoteIncrement.Absent? then None  // "Required fields missing"
      else if price.Malformed? || quoteIncrement.Malformed? then None  // Decimal() raised
      else Some(Quantize(Value(price.value), quoteIncrement.value.exp, HalfEven))
  }

  /** `get_product_details`: both increments, or `None` when the lookup
      raised or either increment is missing or not a decimal. The price is
      not consulted. */
  function GetProductDetails(response: ProductResponse): (r: Option<ProductDetails>)
    ensures r.Some? <==> response.Product? && response.baseIncrement.Present? && response.quoteIncrement.Present?
    ensures r.Some? ==> r.value.baseIncrement == response.baseIncrement.value
    ensures r.Some? ==> r.value.quoteIncrement == response.quoteIncrement.value
  {
    match response
    case LookupRaised(_) => None
    case Product(_, quoteIncrement, baseIncrement) =>
      if baseIncrement.Present? && quoteIncrement.Present? then
        Some(ProductDetails(baseIncrement.value, quoteIncrement.value))
      else
        None
  }

  /** A price of '61536' with a quote increment of '0.01' reads as 61536.00. */
  lemma SpotPriceExample()
    ensures GetSpotPrice(Product(Present(Dec(61536, 0)), Present(Dec(1, -2)), Absent)) == Some(Dec(6153600, -2))
  {
  }

  /** A missing price, whatever the rest of the response, gives no spot price. */
  lemma MissingPriceGivesNone(quoteIncrement: Field, baseIncrement: Field)
    ensures GetSpotPrice(Product(Absent, quoteIncrement, baseIncrement)).None?
  {
  }
}

=== FILE: wrappers.dfy ===
/** Failure-carrying datatypes shared by every module of the model.

    Python signals failure in two ways in the modelled code: by returning
    `None` and by raising an exception. The first becomes `Option`, the
    second a `Result` whose failure side names the exception's kind.
 */
module Wrappers {

  datatype Option<+T> = None | Some(value: T) {

    /** The wrapped value, or `default` when there is none. */
    function GetOr(default: T): T {
      match this
      case Some(v) => v
      case None => default
    }
  }

  datatype Result<+R, +E> = Success(value: R) | Failure(error: E)

  /** The exceptions the modelled code raises or lets propagate. */
  datatype Error =
    | ValueError(message: string)       // explicit `raise ValueError(...)`
    | KeyError(key: string)             // a missing field of a response dict
    | TypeError(message: string)        // arithmetic on, or conversion of, a `None` service result
    | DivisionByZero(message: string)   // `decimal.DivisionByZero`: a non-zero Decimal divided by zero
    | InvalidOperation(message: string) // `decimal.InvalidOperation`: a zero Decimal divided by zero
    | ZeroDivisionError(message: string) // float division by zero
    | PlacementError(message: string)   // the order service's own `raise Exception(...)`
    | ClientError(message: string)      // an exception raised by the REST client, re-raised

  /** Python's `str.startswith`. */
  predicate StartsWith(s: string, prefix: string) {
    |prefix| <= |s| && s[..|prefix|] == prefix
  }
}
